=== FILE: README.md ===
# Farmlink in Dafny

Farmlink is a small farm-to-consumer marketplace. This project models its
sequential core and proves properties of the model:

- the browser-local store of `src/lib/db.ts`: users, products with stock,
  orders that draw stock down, and reviews;
- the cart page: quantity edits, removal, the total, and checkout, which
  splits the cart into one order per farmer;
- the product list's filters and the add-to-cart merge of the product list
  and the product page, with the product page's quantity stepper;
- the server's review schema, the status rules its CRUD routes share, the
  review listings with their average rating, the farm-scoped review POST,
  and the product POST field mapping;
- the role-based routing of login, sign-up and the navigation bar;
- the farmer dashboard's list maintenance and form defaults.

Browser storage (`user`, `cart`, `returnUrl` and the db.ts arrays) is one
explicit `Browser.Storage` value. Each handler is a pure function from the
state and its inputs to the new state and an outcome. The outcome says where
the page navigates and which requests it sends. The answers of `fetch` calls
and of the server are inputs (`Browser.Reply`). Random ids are parameters.

Modules, one per source file plus shared helpers:

- `Options`, `Seqs`, `Text`: optional values; filter, find-index, sum and
  map over sequences with the subsequence relation; ASCII `toLowerCase`,
  `includes`, and `parseInt` both with radix 10 and with no radix (where
  a `0x` or `0X` prefix switches to base 16).
- `LocalDb` (`src/lib/db.ts`).
- `CartLines`: the add-to-cart merge, generic over the record and the key it
  compares. `Browser`: the shared storage and role-to-home-page rule.
- `CartPage`, `ProductsPage`, `ProductDetail`, `Login`, `SignUp`, `Layout`,
  `FarmerDashboard`: one per page or component.
- `ReviewSchema` (`src/models/Review.ts`), `Crud` and `Routes`
  (`server/src/api/routes.ts`).

Each file is modelled against its own field names. db.ts and the cart use
`id`, `farmerId` and `quantity`. The server and the dashboard use `_id`
(written `objectId`), `farmId` and `stock`. Prices in db.ts and the cart are
integer cents. The dashboard and the product POST use `real`. A JavaScript
`NaN` is `None` or `FarmerDashboard.NaN`.

The user, product, order and review routes share one outcome shape:

- GET by id answers 404 when there is no document.
- POST answers 201, or 400 when validation fails.
- PUT checks the body, then the id, giving 400 or 404.
- DELETE answers 404 when there is no document.

`Crud` states this once over a map from id to document. Its source cells cite
the user routes. The order (142-184) and review (196-238) routes by id
repeat them line for line. So do the product PUT (108-120) and DELETE
(122-130). The product GET by id (73-81) has the same statuses; it also
fills in the farm's name and location, which is not modelled. The product
POST (83-106) maps the body field by field before validating: that is
`Routes.PostProduct`.

## Model

| member | source | states |
|---|---|---|
| LocalDb.CreateUser | src/lib/db.ts:131-138 | the new user carries the given id, name and role and is appended; the other arrays are unchanged |
| LocalDb.GetUser | src/lib/db.ts:140-143 | `None` exactly when no user has the id; otherwise the first user with that id |
| LocalDb.GetUserAfterCreate | src/lib/db.ts:131-143 | a user created under a fresh id is found under that id |
| LocalDb.Adjust | src/lib/db.ts:150-151 | quantity moves by the change, `available` holds exactly when the new quantity is positive, and no other field changes |
| LocalDb.UpdateProductQuantity | src/lib/db.ts:146-157 | only the first product with the id is adjusted and the rest are unchanged; a missing id returns `None` with the list unchanged |
| LocalDb.QuantityChangeUndone | src/lib/db.ts:146-157 | a change by c then by -c restores every quantity, and the whole list when the `available` flags were consistent |
| LocalDb.CreateProduct | src/lib/db.ts:159-166 | the product is appended under the fresh id; other arrays unchanged |
| LocalDb.CreateProductListedLast | src/lib/db.ts:159-175 | a created product appears last in its farmer's product list and in no other farmer's list |
| LocalDb.GetFarmerProducts | src/lib/db.ts:172-175 | exactly the farmer's products, in stored order |
| LocalDb.PatchLaws | src/lib/db.ts:182 | the spread merge: an empty patch is the identity, and applying a patch twice equals applying it once |
| LocalDb.UpdateProduct | src/lib/db.ts:177-187 | only the first index with the id is patched and everything else stays; a missing id returns `None` and changes nothing |
| LocalDb.DeleteProduct | src/lib/db.ts:189-194 | keeps exactly the products with another id, in order; the flag is true exactly when some product had the id |
| LocalDb.DeleteTwice | src/lib/db.ts:189-194 | a second delete of the same id removes nothing and reports false |
| LocalDb.ApplyLinesEffect | src/lib/db.ts:202-205 | after the stock loop, the first product of each id has lost the total quantity the lines ask of it |
| LocalDb.ApplyLinesAppend | src/lib/db.ts:202-205 | applying two runs of lines in turn equals applying their concatenation |
| LocalDb.ApplyLinesByTotals | src/lib/db.ts:202-205 | two line lists that name every id equally often and ask equally much of it leave the same products |
| LocalDb.ApplyLinesOrderFree | src/lib/db.ts:202-205 | applying any reordering of the same lines leaves the same products |
| LocalDb.CreateOrder | src/lib/db.ts:197-210 | exactly one order, built from the inputs, is appended, and each product loses its demanded quantity with no lower bound |
| LocalDb.CreateOrderOversells | src/lib/db.ts:197-210 | two orders of 4 against a stock of 5 are both recorded and leave the stock at -3, unavailable |
| LocalDb.GetOrdersByConsumer | src/lib/db.ts:212-215 | exactly the consumer's orders, in stored order |
| LocalDb.GetOrdersByFarmer | src/lib/db.ts:217-220 | exactly the farmer's orders, in stored order |
| LocalDb.CreateReview | src/lib/db.ts:223-230 | the review is appended under the fresh id; other arrays unchanged |
| LocalDb.GetProductReviews | src/lib/db.ts:232-235 | exactly the reviews naming the product, in stored order |
| LocalDb.CreateReviewListedLast | src/lib/db.ts:223-235 | a created review appears last among its product's reviews and nowhere else |
| CartLines.Merge | src/pages/Products.tsx:42-48 | the first entry with the product's key gains the amount and every other entry stays; without such an entry one new entry is appended |
| CartLines.MergeAddsUnits | src/pages/Products.tsx:42-48 | either way, the cart gains exactly the amount in units |
| CartLines.MergeKeepsKeysDistinct | src/pages/ProductDetail.tsx:39-46 | a cart with one entry per key keeps one entry per key and afterwards holds the product |
| Browser.CurrentUser | src/pages/Cart.tsx:13 | a stored user is read back; an absent key or the empty string reads as no user |
| Browser.HomeFor | src/pages/Login.tsx:35-41 | farmer maps to `/farmer/dashboard`, admin to `/admin/dashboard`, and every other role to `/products`, in both directions |
| CartPage.UpdateQuantity | src/pages/Cart.tsx:22-31 | below 1 the cart is unchanged; otherwise only entries with the id take the new quantity, and the length and products stay |
| CartPage.RemoveItem | src/pages/Cart.tsx:33-37 | exactly the entries with another id remain, in order |
| CartPage.UpdateThenRemove | src/pages/Cart.tsx:22-37 | removing a product forgets any earlier quantity edit to it |
| CartPage.RemoveItemTotal | src/pages/Cart.tsx:84 | the cart total is the remaining total plus the removed entries' subtotals |
| CartPage.CartTotalIsLinesTotal | src/pages/Cart.tsx:62 | the displayed total equals the price-times-quantity sum over the order lines |
| CartPage.AddToGroups | src/pages/Cart.tsx:48-56 | one reduce step adds at most one group and never leaves the groups empty |
| CartPage.GroupByFarmer | src/pages/Cart.tsx:47-57 | never more groups than cart entries; no groups exactly for an empty cart |
| CartPage.GroupByFarmerPartitions | src/pages/Cart.tsx:47-57 | one group per distinct farmer in the cart, each holding exactly that farmer's lines in cart order |
| CartPage.DistinctCount | src/pages/Cart.tsx:47-57 | groups with distinct farmers are as many as their farmer ids |
| CartPage.GroupedSum | src/pages/Cart.tsx:47-62 | any per-line quantity summed group by group equals its sum over the whole cart |
| CartPage.NewOrders | src/pages/Cart.tsx:61-71 | one pending order per group |
| CartPage.NewOrdersAt | src/pages/Cart.tsx:61-71 | the orders follow the group order; each is pending and carries its group's farmer, buyer, lines and total |
| CartPage.CreateAll | src/pages/Cart.tsx:61-71 | the forEach appends those orders after the old ones and applies all groups' lines to the stock |
| CartPage.PlaceOrder | src/pages/Cart.tsx:39-82 | a non-consumer is sent to `/login` with return address `/cart` and nothing else changes; a consumer ends with an empty cart on `/products` |
| CartPage.CheckoutOrders | src/pages/Cart.tsx:61-71 | the orders are one per distinct farmer, each with that farmer's lines and their total, and the totals add up to the cart total |
| CartPage.PlaceOrderRecords | src/pages/Cart.tsx:61-75 | the existing orders stay first, followed by exactly as many orders as there are distinct farmers, with the properties above |
| CartPage.PlaceOrderStock | src/pages/Cart.tsx:61-71 | checkout leaves every product as if the cart's lines had been taken from it in cart order |
| CartPage.GroupOrderFree | src/pages/Cart.tsx:61-71 | creating the farmers' orders in any other order of the groups leaves the same stock |
| CartPage.PlaceOrderAsWritten | src/pages/Cart.tsx:39-82 | as written, a consumer with a non-empty cart gets an alert and storage exactly as before |
| CartPage.MissingImportLosesOrders | src/pages/Cart.tsx:64 | as written no order is recorded where the intended checkout records at least one |
| ProductsPage.FilterProducts | src/pages/Products.tsx:21-38 | a product is listed exactly when it matches the category (or `all`) and the query (or an empty query), in stored order |
| ProductsPage.FilterProductsIsOneFilter | src/pages/Products.tsx:21-38 | the two successive filters equal one filter by the combined condition |
| ProductsPage.NoFilterShowsAll | src/pages/Products.tsx:22-37 | with `all` and an empty search the list is the product list |
| ProductsPage.SearchIgnoresCase | src/pages/Products.tsx:30-35 | a lower-cased query lists the same products as the query |
| ProductsPage.AddToCart | src/pages/Products.tsx:40-52 | a new id appends quantity 1; an existing id raises the first entry with that id by one and leaves every other entry as it was; the cart gains one unit and keeps one entry per id |
| ProductDetail.Decrement | src/pages/ProductDetail.tsx:100 | the `-` button lowers by one above 1 and gives exactly 1 at or below it |
| ProductDetail.Increment | src/pages/ProductDetail.tsx:114 | the `+` button raises by one below the stock and gives exactly the stock at or above it |
| ProductDetail.TypedQuantity | src/pages/ProductDetail.tsx:110 | a number in 1..stock is taken as typed, one at or above the stock gives the stock, and NaN, 0, 1 or a negative gives 1; the result lies in 1..stock whenever the stock is at least 1 |
| ProductDetail.TypedClamps | src/pages/ProductDetail.tsx:110 | typing more than the stock selects the stock; typing a negative number selects 1 |
| ProductDetail.RunStaysInRange | src/pages/ProductDetail.tsx:100-114 | no series of button presses and typed values leaves 1..stock |
| ProductDetail.TypedRoundTrip | src/pages/ProductDetail.tsx:110 | typing a quantity the stock allows selects exactly that quantity |
| ProductDetail.TypedFallsBackToOne | src/pages/ProductDetail.tsx:110 | a non-number or zero selects one unit |
| ProductDetail.EnabledAddWithinStock | src/pages/ProductDetail.tsx:127 | whenever the add button is enabled for a product with positive stock, the chosen quantity lies in 1..stock |
| ProductDetail.AddToCart | src/pages/ProductDetail.tsx:36-50 | nothing happens before the product loads; otherwise a new `_id` is appended with the chosen quantity, or the first entry with that `_id` gains the chosen units while every other entry stays as it was; one entry per `_id` is kept |
| ProductDetail.AddToCartAsWritten | src/pages/ProductDetail.tsx:36-50 | as written the merge also gains the chosen units, but it is keyed on the `id` property |
| ProductDetail.AsWrittenMergesDifferentProducts | src/pages/ProductDetail.tsx:40 | as written, two different fetched products collapse into one entry of quantity 2 |
| ReviewSchema.Validate | src/models/Review.ts:3-19 | accepted exactly when the review has one target, an author, a rating in 1..5 and a non-empty comment; the hook's rejection comes first |
| ReviewSchema.NoTargetRejected | src/models/Review.ts:15-16 | a review with neither product nor farm is rejected by the hook |
| ReviewSchema.TwoTargetsRejected | src/models/Review.ts:15-16 | a review with both product and farm is rejected by the hook |
| ReviewSchema.RatingOutOfRangeRejected | src/models/Review.ts:8 | a rating outside 1..5 is never accepted and is reported by its bound |
| Crud.Get | server/src/api/routes.ts:19-27 | 200 with the document exactly when the id is stored, else 404 |
| Crud.Create | server/src/api/routes.ts:29-37 | 201 and the document stored exactly when it validates; otherwise 400 and nothing stored |
| Crud.Update | server/src/api/routes.ts:39-51 | an invalid body is 400 and an absent id 404, both changing nothing; otherwise the merged document is stored and returned; keys never change |
| Crud.Delete | server/src/api/routes.ts:53-61 | 200 and the document removed when stored, else 404; other documents keep their values |
| Crud.AbsentIdNotFound | server/src/api/routes.ts:122-130 | an absent id is 404 for GET, for a PUT with a valid body, and for DELETE, and nothing changes |
| Crud.DeleteTwice | server/src/api/routes.ts:176-184 | the second DELETE of an id is 404 and changes nothing |
| Crud.GetAfterCreate | server/src/api/routes.ts:196-214 | GET returns what a successful POST stored |
| Crud.GetAfterDelete | server/src/api/routes.ts:196-238 | after DELETE the id is 404 and other ids read as before |
| Routes.Summarize | server/src/api/routes.ts:248-254 | `totalReviews` is the count; the average times the count is the rating sum, and 0 for no reviews |
| Routes.ListFarmReviews | server/src/api/routes.ts:241-258 | exactly the farm's reviews in query order, with their count and average |
| Routes.ListProductReviews | server/src/api/routes.ts:276-293 | exactly the product's reviews in query order, with their count and average |
| Routes.AverageWithinScale | server/src/api/routes.ts:248-252 | when every review passed the schema, a non-empty listing averages between 1 and 5 |
| Routes.PostReview | server/src/api/routes.ts:206-214 | a valid body gets 201 and is stored under the new id, the other reviews untouched; an invalid one gets 400 and adds no record; every stored review stays valid |
| Routes.PostFarmReview | server/src/api/routes.ts:260-273 | the stored review's farm is the path's, overriding the body; it is stored exactly when valid; stored reviews stay valid |
| Routes.FarmReviewWithProductRefused | server/src/api/routes.ts:262-266 | a farm review whose body names a product is always 400 |
| Routes.PutReviewAsWritten | server/src/api/routes.ts:216-228 | as written a PUT checks only the paths its body sets before merging |
| Routes.PutReviewAsWrittenAddsSecondTarget | server/src/api/routes.ts:216-228 | as written, setting `farmId` on a stored product review is 200 and stores an invalid review |
| Routes.PutReview | server/src/api/routes.ts:216-228 | a PUT that checks the merged review: 404 for an absent id, 200 only for a valid merge, and stored reviews stay valid |
| Routes.WritesKeepReviewsValid | server/src/api/routes.ts:206-273 | any series of review POSTs, PUTs and DELETEs keeps every stored review valid |
| Routes.MapProductBody | server/src/api/routes.ts:87-97 | the unit is always `kg`, the farm is copied, stock goes through `parseInt` with no radix, and `available` defaults to true |
| Routes.ProductValid | server/src/models/Product.ts:3-14 | a document saves exactly when none of the required paths fails: name, description, category and unit present and non-empty, a farm, price and stock numbers |
| Routes.OptionalPathsIgnored | server/src/models/Product.ts:7-12 | `image` and `available` never decide whether a product saves |
| Routes.PostProduct | server/src/api/routes.ts:83-106 | 201 exactly for a valid mapped product, which is stored (with unit `kg`, the body's farm and the parsed stock) under the new id and answered, the other products untouched; otherwise 400 and nothing stored |
| Routes.ProductWithoutStockRefused | server/src/api/routes.ts:93 | an empty stock parses to NaN and the product is refused |
| Routes.ProductStockReadBack | server/src/api/routes.ts:93 | a stock written as digits is stored as that number |
| Routes.ProductHexStockReadBack | server/src/api/routes.ts:93 | a stock written `0x` and base-16 digits is stored as the base-16 number |
| Routes.ProductBareHexPrefixRefused | server/src/api/routes.ts:93 | a stock of `0x` with no base-16 digit after it is NaN, and the product is refused with nothing stored |
| Login.Submit | src/pages/Login.tsx:12-42 | the user is created and stored; a truthy return address is removed and followed, except that a non-consumer returning to `/cart` is signed out and stays on the consumer form; otherwise the role decides |
| Login.CheckoutDetour | src/pages/Login.tsx:20-30 | a visitor turned away at checkout who logs in as a consumer lands on `/cart` able to check out with the same cart; any other role stays put and still cannot check out |
| SignUp.Submit | src/pages/SignUp.tsx:14-76 | no role: an error and no request; a taken email: an error and no creation; creation is sent exactly when neither applies; success stores the user and goes to its role's home |
| SignUp.SignUpLandsOnHome | src/pages/SignUp.tsx:65-71 | a successful sign-up redirects like a login with the new user's role |
| Layout.NavLinks | src/components/Layout.tsx:21-26 | Home and Products first; the farmer link exactly for a farmer, the admin link exactly for an admin; at most three links |
| Layout.Logout | src/components/Layout.tsx:16-19 | the stored user is removed and the page goes to `/login` |
| Layout.LogoutHidesDashboards | src/components/Layout.tsx:17-26 | after logout only Home and Products remain |
| FarmerDashboard.OrZero | src/pages/FarmerDashboard.tsx:77 | a falsy number (NaN or 0) becomes 0; any other keeps its value |
| FarmerDashboard.ImageOrDefault | src/pages/FarmerDashboard.tsx:79 | an empty image becomes the default photo; the result is never empty |
| FarmerDashboard.SubmitBody | src/pages/FarmerDashboard.tsx:74-82 | price and stock default to 0, the image to the default photo, the other fields are copied, and the farm is sent on create only |
| FarmerDashboard.Submit | src/pages/FarmerDashboard.tsx:58-135 | no user goes to `/login`; a successful edit replaces exactly the products with the edited `_id`; a successful create appends one product; both reset the form; a failure changes nothing |
| FarmerDashboard.Delete | src/pages/FarmerDashboard.tsx:151-168 | after confirmation and success exactly the products with another `_id` remain, in order; otherwise nothing changes |
| FarmerDashboard.EditThenDelete | src/pages/FarmerDashboard.tsx:90-162 | deleting a product after editing it leaves what deleting it alone leaves |
| FarmerDashboard.StockInput | src/pages/FarmerDashboard.tsx:219 | an empty or unparsable field gives 0; otherwise the value `parseInt` reads |
| FarmerDashboard.StockInputRoundTrip | src/pages/FarmerDashboard.tsx:219 | a whole number typed with or without a minus sign is read back exactly |
| Text.ParseInt | src/pages/FarmerDashboard.tsx:219 | `parseInt(s, 10)` is NaN exactly when, after white space and an optional sign, no decimal digit follows; a negative result needs a minus sign |
| Text.ParseIntNoRadix | server/src/api/routes.ts:93 | `parseInt(s)` agrees with radix 10 unless `0x` or `0X` follows the sign; after that prefix it is NaN exactly when no base-16 digit follows |
| Text.ParseIntDecimal | src/pages/FarmerDashboard.tsx:219 | a printed whole number reads back as itself, whatever non-digit text follows |
| Text.ParseIntNoRadixDecimal | src/pages/ProductDetail.tsx:110 | without a radix a printed whole number still reads back as itself |
| Text.ParseIntNoRadixNegative | src/pages/ProductDetail.tsx:110 | without a radix a minus sign still negates a printed whole number |
| Text.ParseIntNoRadixHex | server/src/api/routes.ts:93 | without a radix, `0x` and a base-16 numeral read as that numeral's number |
| Text.ParseIntNoRadixBarePrefix | server/src/api/routes.ts:93 | without a radix, `0x` with no base-16 digit after it is NaN, while radix 10 reads it as 0 |
| Text.ParseIntNaN | server/src/api/routes.ts:93 | text whose first character is neither space, sign nor digit is NaN under either radix |

## Left out

- Rendering, React state scheduling, alerts, `console` output and the `fetch` transport are left out. Server answers are inputs to the handlers.
- Express wiring, CORS, environment settings and the MongoDB connection are left out: they are plumbing.
- Mongoose internals are left out: casting, `populate`, and the `createdAt` sort. The product GET by id fills `farmId` with the farm's name and location, and the review listings fill `userId` with the author's name; the model returns the stored ids. A listing takes the reviews in the order the query returns them, because that order depends on the clock.
- Ids drawn from `Math.random` in db.ts, and the ids MongoDB assigns, are parameters. They are assumed fresh where the source relies on it (`requires id !in db`).
- The 500 answers of the GET and DELETE routes are left out. So are the cast errors a malformed id raises. The model's ids are opaque strings.
- The list routes (`GET /users`, `/products`, `/orders`, `/reviews`, `/farms/:farmId/products`) are left out. Each is a plain `find`.
- Unique usernames in the server's user schema, and the user schema's other paths, are left out. The generic `Crud` rules take the validation as a parameter.
- A PUT body that sets a path to `null`, and a spread patch key explicitly set to `undefined`, are left out. A patch field is either absent or a value.
- db.ts seeds its sample products and initialises empty arrays on load. This is left out; the store is an explicit input.
- `getProducts` in db.ts is left out: it is a plain read of the stored list.
- Floating point is left out. Prices are integer cents in db.ts and the cart, `real` on the dashboard and in the product POST. Ratings are integers, so a fractional rating such as 4.5, which the schema accepts, is not modelled.
- `parseFloat` is a parameter of the product POST. `parseInt` is exact: the loss of precision above 2^53 and the sign of a negative zero are not modelled. Radixes other than 10 and the radix-less default (10, or 16 after `0x`) do not occur in the source and are not modelled.
- `toLowerCase` lowers ASCII letters only. Other Unicode case mappings are not modelled.
- The checkout grouping lists farmers in the order they first appear. `Object.entries` lists integer-like keys first in ascending order, and a farmer id naming an `Object.prototype` member (such as `constructor`) would hit the prototype. Both are left out. Another group order would change which id each order takes, the order in which the orders are appended to `orders`, and the order of the stock updates. The model fixes first-appearance order for the first two. For the stock, `CartPage.GroupOrderFree` proves that any reordering of the groups leaves the same products.
- A missing `farmerId` has no fallback group: the grouping uses whatever value the item carries, as the code does.
- The pre-validate hook in `src/models/Review.ts` calls `next()` again after `next(err)`. The model takes the first call, which rejects. What the second call does depends on the hook runner.
- The product list and the product page share one stored cart, but they write differently shaped records into it. Each page's cart is modelled with its own record type.
- Field names are not reconciled across files. The cart reads `id`/`farmerId` while the server sends `_id`/`farmId`. Login writes `consumer` while the server's role enum says `customer`. Sign-up sends `email` where the server requires `username`.
- The dashboard's initial fetches and `handleEdit` (copying a product into the form) are left out. Those are reads and form filling.
- The dashboard reads `user._id` from a stored user; the model takes that id as given.
- ProductDetail.RunStaysInRange: stated for a stock of at least 1 only. With a stock of 0 or below, `Math.min(stock, …)` drives the quantity to the stock. The add button is disabled only for a stock of exactly 0.

## Findings

| source | as written | input that shows it | evidently intended | confidence | as-written member | corrected member |
|---|---|---|---|---|---|---|
| src/pages/Cart.tsx:64 | `createOrder` is called but never imported, so the first call throws a ReferenceError; the `catch` shows an alert and nothing is recorded or cleared | a signed-in consumer places an order with one item in the cart | one order per farmer through db.ts `createOrder`, then an empty cart and the product list | not executed; high | CartPage.PlaceOrderAsWritten | CartPage.PlaceOrder |
| src/pages/ProductDetail.tsx:40 | entries are matched on `item.id === product.id`, but a product fetched from the server carries only `_id`, so both sides are `undefined` | add product A, then a different product B, from their pages | B gets its own cart entry; A's quantity stays 1 | not executed; medium (assumes the server's JSON has no `id` virtual, the default) | ProductDetail.AddToCartAsWritten | ProductDetail.AddToCart |
| server/src/api/routes.ts:218-222 | `findByIdAndUpdate` with `runValidators` runs only the validators of the paths the body sets; the exactly-one-target hook never runs | PUT `{ farmId }` on a stored product review | the update is refused because the merged review would have two targets | not executed; medium | Routes.PutReviewAsWritten | Routes.PutReview |

The counterexamples are proved as `CartPage.MissingImportLosesOrders`,
`ProductDetail.AsWrittenMergesDifferentProducts` and
`Routes.PutReviewAsWrittenAddsSecondTarget`. The corrected members carry the
intended properties:

- `CartPage.PlaceOrderRecords` and `CartPage.PlaceOrderStock` for checkout;
- `ProductDetail.AddToCart`'s one-entry-per-product contract;
- `Routes.PutReview` and `Routes.WritesKeepReviewsValid`, which keep every
  stored review valid.

`Login.CheckoutDetour` uses the corrected checkout.

=== FILE: browser.dfy ===
/**
 * Browser-side state shared by the pages: the localStorage keys `user`,
 * `cart` and `returnUrl`, the db.ts store, the role-to-home-page rule, and
 * the outcomes of a `fetch` call.
 */
module Browser {
  import opened Options
  import LocalDb
  import CartLines

  /** A cart line as the product list stores it: a db.ts product plus the cart quantity. */
  type CartItem = CartLines.Entry<LocalDb.Product>

  /**
   * The `user` key: absent, the empty string the login page writes to sign
   * a user out, or a stored user record.
   */
  datatype UserSlot = Unset | Blank | Holds(user: LocalDb.User)

  datatype Storage = Storage(user: UserSlot, cart: seq<CartItem>, returnUrl: Option<string>, db: LocalDb.Store)

  /** `JSON.parse(localStorage.getItem('user') || 'null')`: the empty string reads as no user. */
  function CurrentUser(slot: UserSlot): (u: Option<LocalDb.User>)
    ensures u.Some? <==> slot.Holds?
    ensures slot.Holds? ==> u == Some(slot.user)
  {
    match slot
    case Holds(user) => Some(user)
    case _ => None
  }

  /** The page a user lands on after signing in or up without a return address. */
  function HomeFor(role: string): (path: string)
    ensures path == "/farmer/dashboard" <==> role == "farmer"
    ensures path == "/admin/dashboard" <==> role == "admin"
    ensures path == "/products" <==> role != "farmer" && role != "admin"
  {
    if role == "farmer" then "/farmer/dashboard"
    else if role == "admin" then "/admin/dashboard"
    else "/products"
  }

  /** How a `fetch` ends: a non-2xx response, a thrown error with its message, or a parsed body. */
  datatype Reply<T> = NotOk | Threw(message: string) | Ok(value: T)
}

=== FILE: cart_lines.dfy ===
/**
 * The add-to-cart merge shared by the product list and the product page:
 * read the stored cart, bump the first entry whose key equals the product's
 * key, or append a new entry. The product type and the key are parameters
 * because the two pages put differently shaped records into the cart and
 * compare them by different properties.
 */
module CartLines {
  import Seqs

  /**
   * `{ ...product, quantity }`: the product's fields, with the cart quantity
   * in place of any `quantity` field the product has (in `src/lib/db.ts`
   * that field is the stock). The stored product keeps its own field;
   * `quantity` here is the entry's.
   */
  datatype Entry<P> = Entry(product: P, quantity: int)

  /** Entry `i` is the first one whose key is `key`, the one `cart.find` returns. */
  predicate FirstWithKey<P, K(==)>(cart: seq<Entry<P>>, keyOf: P -> K, key: K, i: int)
    requires 0 <= i < |cart|
  {
    keyOf(cart[i].product) == key && forall j :: 0 <= j < i ==> keyOf(cart[j].product) != key
  }

  /** The condition `cart.find` checks: the entry's key is `key`. */
  function KeyIs<P, K(==)>(keyOf: P -> K, key: K): Entry<P> -> bool {
    (e: Entry<P>) => keyOf(e.product) == key
  }

  predicate HasKey<P, K(==)>(cart: seq<Entry<P>>, keyOf: P -> K, key: K) {
    exists i :: 0 <= i < |cart| && keyOf(cart[i].product) == key
  }

  /** No two entries share a key. */
  predicate DistinctKeys<P, K(==)>(cart: seq<Entry<P>>, keyOf: P -> K) {
    forall i, j :: 0 <= i < j < |cart| ==> keyOf(cart[i].product) != keyOf(cart[j].product)
  }

  /**
   * `existingItem.quantity += amount`, or `cart.push({ ...product, quantity: amount })`
   * when no entry has the product's key.
   */
  function Merge<P, K(==)>(cart: seq<Entry<P>>, keyOf: P -> K, product: P, amount: int): (r: seq<Entry<P>>)
    ensures !HasKey(cart, keyOf, keyOf(product)) ==> r == cart + [Entry(product, amount)]
    ensures HasKey(cart, keyOf, keyOf(product)) ==> |r| == |cart|
    ensures HasKey(cart, keyOf, keyOf(product)) ==> forall i :: 0 <= i < |cart| ==>
      r[i] == if FirstWithKey(cart, keyOf, keyOf(product), i) then cart[i].(quantity := cart[i].quantity + amount) else cart[i]
    ensures HasKey(cart, keyOf, keyOf(product)) ==>
      exists i :: 0 <= i < |cart| && FirstWithKey(cart, keyOf, keyOf(product), i) && r == Bump(cart, i, amount)
  {
    var key := keyOf(product);
    match Seqs.FirstIndex(cart, KeyIs(keyOf, key))
    case None => cart + [Entry(product, amount)]
    case Some(i) =>
      assert FirstWithKey(cart, keyOf, key, i);
      Bump(cart, i, amount)
  }

  /** Entry `i` with its quantity raised by `amount`. */
  function Bump<P>(cart: seq<Entry<P>>, i: int, amount: int): seq<Entry<P>>
    requires 0 <= i < |cart|
  {
    cart[i := cart[i].(quantity := cart[i].quantity + amount)]
  }

  function QuantityOf<P>(e: Entry<P>): int {
    e.quantity
  }

  /** The number of units in the cart. */
  function Units<P>(cart: seq<Entry<P>>): int {
    Seqs.Sum(cart, QuantityOf)
  }

  /** Whichever branch it takes, a merge adds exactly `amount` units to the cart. */
  lemma MergeAddsUnits<P, K>(cart: seq<Entry<P>>, keyOf: P -> K, product: P, amount: int)
    ensures Units(Merge(cart, keyOf, product, amount)) == Units(cart) + amount
  {
    if HasKey(cart, keyOf, keyOf(product)) {
      var r := Merge(cart, keyOf, product, amount);
      assert exists i :: 0 <= i < |cart| && FirstWithKey(cart, keyOf, keyOf(product), i) && r == Bump(cart, i, amount);
      var i :| 0 <= i < |cart| && FirstWithKey(cart, keyOf, keyOf(product), i)
        && Merge(cart, keyOf, product, amount) == Bump(cart, i, amount);
      Seqs.SumUpdate(cart, i, cart[i].(quantity := cart[i].quantity + amount), QuantityOf);
    } else {
      Seqs.SumAppend(cart, [Entry(product, amount)], QuantityOf);
    }
  }

  /**
   * A cart with one entry per key keeps one entry per key, and afterwards
   * any cart holds an entry for the product.
   */
  lemma MergeKeepsKeysDistinct<P, K>(cart: seq<Entry<P>>, keyOf: P -> K, product: P, amount: int)
    ensures DistinctKeys(cart, keyOf) ==> DistinctKeys(Merge(cart, keyOf, product, amount), keyOf)
    ensures HasKey(Merge(cart, keyOf, product, amount), keyOf, keyOf(product))
  {
    var r := Merge(cart, keyOf, product, amount);
    if HasKey(cart, keyOf, keyOf(product)) {
      assert forall i :: 0 <= i < |cart| ==> keyOf(r[i].product) == keyOf(cart[i].product);
      var i :| 0 <= i < |cart| && keyOf(cart[i].product) == keyOf(product);
      assert keyOf(r[i].product) == keyOf(product);
    } else {
      assert keyOf(r[|cart|].product) == keyOf(product);
    }
  }
}

=== FILE: cart_page.dfy ===
/**
 * The cart page (src/pages/Cart.tsx): quantity edits, removal, the cart
 * total, and checkout, which groups the cart by farmer and records one
 * order per farmer through db.ts `createOrder`.
 */
module CartPage {
  import opened Options
  import Seqs
  import LocalDb
  import opened Browser

  // ------------------------------------------------------------------ edits

  function SetQuantity(productId: string, newQuantity: int): CartItem -> CartItem {
    (item: CartItem) => if item.product.id == productId then item.(quantity := newQuantity) else item
  }

  /**
   * `updateQuantity`: a quantity below one is ignored; otherwise every entry
   * with the product's id takes the new quantity.
   */
  function UpdateQuantity(cart: seq<CartItem>, productId: string, newQuantity: int): (r: seq<CartItem>)
    ensures newQuantity < 1 ==> r == cart
    ensures |r| == |cart|
    ensures forall i :: 0 <= i < |cart| ==> r[i].product == cart[i].product
    ensures forall i :: 0 <= i < |cart| ==>
      r[i].quantity == if newQuantity >= 1 && cart[i].product.id == productId then newQuantity else cart[i].quantity
  {
    if newQuantity < 1 then cart else Seqs.Map(cart, SetQuantity(productId, newQuantity))
  }

  function Keeps(productId: string): CartItem -> bool {
    (item: CartItem) => item.product.id != productId
  }

  function Drops(productId: string): CartItem -> bool {
    (item: CartItem) => item.product.id == productId
  }

  /** `removeItem`: every entry with the product's id leaves the cart; the rest keep their order. */
  function RemoveItem(cart: seq<CartItem>, productId: string): (r: seq<CartItem>)
    ensures forall item :: item in r <==> item in cart && item.product.id != productId
    ensures Seqs.IsSubsequence(r, cart)
    ensures |r| == Seqs.Count(cart, Keeps(productId))
  {
    Seqs.Filter(cart, Keeps(productId))
  }

  /** Removing a product forgets any quantity edit made to it before. */
  lemma {:induction false} UpdateThenRemove(cart: seq<CartItem>, productId: string, newQuantity: int)
    ensures RemoveItem(UpdateQuantity(cart, productId, newQuantity), productId) == RemoveItem(cart, productId)
    decreases |cart|
  {
    if newQuantity >= 1 && cart != [] {
      var f := SetQuantity(productId, newQuantity);
      assert Seqs.Map(cart, f) == [f(cart[0])] + Seqs.Map(cart[1..], f);
      UpdateThenRemove(cart[1..], productId, newQuantity);
      assert UpdateQuantity(cart[1..], productId, newQuantity) == Seqs.Map(cart[1..], f);
    }
  }

  // ------------------------------------------------------------------ totals

  function Subtotal(item: CartItem): int {
    item.product.price * item.quantity
  }

  /** `total`: price times quantity, summed over the cart. */
  function CartTotal(cart: seq<CartItem>): int {
    Seqs.Sum(cart, Subtotal)
  }

  /** Removing a product lowers the total by exactly the subtotals of its entries. */
  lemma RemoveItemTotal(cart: seq<CartItem>, productId: string)
    ensures CartTotal(cart) == CartTotal(RemoveItem(cart, productId)) + CartTotal(Seqs.Filter(cart, Drops(productId)))
  {
    Seqs.SumSplit(cart, Subtotal, Keeps(productId), Drops(productId));
  }

  /** The order line a cart entry becomes: `{ productId: item.id, quantity, price }`. */
  function ToLine(item: CartItem): LocalDb.OrderLine {
    LocalDb.OrderLine(item.product.id, item.quantity, item.product.price)
  }

  function Lines(cart: seq<CartItem>): seq<LocalDb.OrderLine> {
    Seqs.Map(cart, ToLine)
  }

  function LineTotal(l: LocalDb.OrderLine): int {
    l.price * l.quantity
  }

  /** `products.reduce((sum, item) => sum + item.price * item.quantity, 0)`. */
  function OrderTotal(lines: seq<LocalDb.OrderLine>): int {
    Seqs.Sum(lines, LineTotal)
  }

  /** The displayed cart total is the total of the cart's order lines. */
  lemma {:induction false} CartTotalIsLinesTotal(cart: seq<CartItem>)
    ensures CartTotal(cart) == OrderTotal(Lines(cart))
    decreases |cart|
  {
    if cart != [] {
      CartTotalIsLinesTotal(cart[1..]);
      assert Lines(cart) == [ToLine(cart[0])] + Lines(cart[1..]);
    }
  }

  // ------------------------------------------------------------------ grouping

  /** One entry of `ordersByFarmer`: a farmer id and the lines pushed under it. */
  datatype FarmerGroup = FarmerGroup(farmerId: string, lines: seq<LocalDb.OrderLine>)

  function GroupOf(farmerId: string): FarmerGroup -> bool {
    (g: FarmerGroup) => g.farmerId == farmerId
  }

  /** One step of the `reduce`: push the line under the item's farmer, creating the group on first sight. */
  function AddToGroups(groups: seq<FarmerGroup>, item: CartItem): (r: seq<FarmerGroup>)
    ensures |groups| <= |r| <= |groups| + 1 && r != []
  {
    match Seqs.FirstIndex(groups, GroupOf(item.product.farmerId))
    case Some(i) => groups[i := groups[i].(lines := groups[i].lines + [ToLine(item)])]
    case None => groups + [FarmerGroup(item.product.farmerId, [ToLine(item)])]
  }

  /** `cartItems.reduce(...)`, groups listed in the order their farmer first appears. */
  function GroupByFarmer(cart: seq<CartItem>): (r: seq<FarmerGroup>)
    ensures |r| <= |cart|
    ensures r == [] <==> cart == []
    decreases |cart|
  {
    if cart == [] then [] else AddToGroups(GroupByFarmer(cart[..|cart| - 1]), cart[|cart| - 1])
  }

  function FromFarmer(farmerId: string): CartItem -> bool {
    (item: CartItem) => item.product.farmerId == farmerId
  }

  /** The cart entries of one farmer, in cart order. */
  function ItemsOf(cart: seq<CartItem>, farmerId: string): seq<CartItem> {
    Seqs.Filter(cart, FromFarmer(farmerId))
  }

  function FarmerIds(cart: seq<CartItem>): set<string> {
    set item | item in cart :: item.product.farmerId
  }

  function GroupIds(groups: seq<FarmerGroup>): set<string> {
    set k | 0 <= k < |groups| :: groups[k].farmerId
  }

  predicate DistinctFarmers(groups: seq<FarmerGroup>) {
    forall i, j :: 0 <= i < j < |groups| ==> groups[i].farmerId != groups[j].farmerId
  }

  /**
   * `groups` splits the cart by farmer: one group per farmer in the cart,
   * and each group holds exactly that farmer's lines in cart order.
   */
  predicate IsPartition(cart: seq<CartItem>, groups: seq<FarmerGroup>) {
    && DistinctFarmers(groups)
    && GroupIds(groups) == FarmerIds(cart)
    && forall k :: 0 <= k < |groups| ==> groups[k].lines == Lines(ItemsOf(cart, groups[k].farmerId))
  }

  lemma FarmerIdsSnoc(pre: seq<CartItem>, x: CartItem)
    ensures FarmerIds(pre + [x]) == FarmerIds(pre) + {x.product.farmerId}
  {
    var cart := pre + [x];
    forall fid | fid in FarmerIds(cart)
      ensures fid in FarmerIds(pre) + {x.product.farmerId}
    {
      var item :| item in cart && item.product.farmerId == fid;
      if item != x {
        assert item in pre;
      }
    }
    assert x in cart;
    forall fid | fid in FarmerIds(pre)
      ensures fid in FarmerIds(cart)
    {
      var item :| item in pre && item.product.farmerId == fid;
      assert item in cart;
    }
  }

  lemma ItemsOfSnoc(pre: seq<CartItem>, x: CartItem, fid: string)
    ensures Lines(ItemsOf(pre + [x], fid)) ==
      if x.product.farmerId == fid then Lines(ItemsOf(pre, fid)) + [ToLine(x)] else Lines(ItemsOf(pre, fid))
  {
    Seqs.FilterAppend(pre, [x], FromFarmer(fid));
    assert [x][1..] == [];
    Seqs.MapAppend(ItemsOf(pre, fid), Seqs.Filter([x], FromFarmer(fid)), ToLine);
  }

  lemma GroupIdsSnoc(groups: seq<FarmerGroup>, g: FarmerGroup)
    ensures GroupIds(groups + [g]) == GroupIds(groups) + {g.farmerId}
  {
    var r := groups + [g];
    assert r[|groups|].farmerId in GroupIds(r);
    forall fid | fid in GroupIds(groups) ensures fid in GroupIds(r) {
      var k :| 0 <= k < |groups| && groups[k].farmerId == fid;
      assert r[k].farmerId == fid;
    }
  }

  /** A farmer whose first item is appended gets a new group of one line. */
  lemma PartitionSnocNew(pre: seq<CartItem>, x: CartItem, g: seq<FarmerGroup>)
    requires IsPartition(pre, g)
    requires forall k :: 0 <= k < |g| ==> g[k].farmerId != x.product.farmerId
    ensures IsPartition(pre + [x], g + [FarmerGroup(x.product.farmerId, [ToLine(x)])])
  {
    var cart := pre + [x];
    var fid := x.product.farmerId;
    var r := g + [FarmerGroup(fid, [ToLine(x)])];
    FarmerIdsSnoc(pre, x);
    GroupIdsSnoc(g, FarmerGroup(fid, [ToLine(x)]));
    assert fid !in GroupIds(g);
    assert ItemsOf(pre, fid) == [];
    forall k | 0 <= k < |r|
      ensures r[k].lines == Lines(ItemsOf(cart, r[k].farmerId))
    {
      ItemsOfSnoc(pre, x, r[k].farmerId);
    }
  }

  /** An item whose farmer already has group `i` extends that group and no other. */
  lemma PartitionSnocExisting(pre: seq<CartItem>, x: CartItem, g: seq<FarmerGroup>, i: nat)
    requires IsPartition(pre, g)
    requires i < |g| && g[i].farmerId == x.product.farmerId
    ensures IsPartition(pre + [x], g[i := g[i].(lines := g[i].lines + [ToLine(x)])])
  {
    var cart := pre + [x];
    var r := g[i := g[i].(lines := g[i].lines + [ToLine(x)])];
    assert forall k :: 0 <= k < |g| ==> r[k].farmerId == g[k].farmerId;
    assert DistinctFarmers(r);
    assert GroupIds(r) == FarmerIds(cart) by {
      FarmerIdsSnoc(pre, x);
      assert GroupIds(r) == GroupIds(g);
      assert g[i].farmerId in GroupIds(g);
    }
    forall k | 0 <= k < |r|
      ensures r[k].lines == Lines(ItemsOf(cart, r[k].farmerId))
    {
      ItemsOfSnoc(pre, x, r[k].farmerId);
    }
  }

  /** Grouping by farmer is a partition of the cart. */
  lemma {:induction false} GroupByFarmerPartitions(cart: seq<CartItem>)
    ensures IsPartition(cart, GroupByFarmer(cart))
    decreases |cart|
  {
    if cart != [] {
      var pre := cart[..|cart| - 1];
      var x := cart[|cart| - 1];
      assert cart == pre + [x];
      var g := GroupByFarmer(pre);
      GroupByFarmerPartitions(pre);
      match Seqs.FirstIndex(g, GroupOf(x.product.farmerId))
      case Some(i) => PartitionSnocExisting(pre, x, g, i);
      case None => PartitionSnocNew(pre, x, g);
    }
  }

  /** The sum of `f` over a group's lines. */
  function GroupSum(f: LocalDb.OrderLine -> int): FarmerGroup -> int {
    (g: FarmerGroup) => Seqs.Sum(g.lines, f)
  }

  /** Any per-line quantity summed group by group equals the same quantity summed over the cart. */
  lemma {:induction false} GroupedSum(cart: seq<CartItem>, f: LocalDb.OrderLine -> int)
    ensures Seqs.Sum(GroupByFarmer(cart), GroupSum(f)) == Seqs.Sum(Lines(cart), f)
    decreases |cart|
  {
    if cart != [] {
      var pre := cart[..|cart| - 1];
      var x := cart[|cart| - 1];
      assert cart == pre + [x];
      var g := GroupByFarmer(pre);
      GroupedSum(pre, f);
      Seqs.MapAppend(pre, [x], ToLine);
      assert Lines(cart) == Lines(pre) + [ToLine(x)];
      Seqs.SumAppend(Lines(pre), [ToLine(x)], f);
      assert Seqs.Sum([ToLine(x)], f) == f(ToLine(x));
      match Seqs.FirstIndex(g, GroupOf(x.product.farmerId))
      case Some(i) => SumBumpGroup(g, i, ToLine(x), f);
      case None => SumNewGroup(g, x.product.farmerId, ToLine(x), f);
    }
  }

  /** Pushing a line onto group `i` adds its value to the group-by-group sum. */
  lemma SumBumpGroup(g: seq<FarmerGroup>, i: nat, line: LocalDb.OrderLine, f: LocalDb.OrderLine -> int)
    requires i < |g|
    ensures Seqs.Sum(g[i := g[i].(lines := g[i].lines + [line])], GroupSum(f)) == Seqs.Sum(g, GroupSum(f)) + f(line)
  {
    Seqs.SumUpdate(g, i, g[i].(lines := g[i].lines + [line]), GroupSum(f));
    Seqs.SumAppend(g[i].lines, [line], f);
  }

  /** A new group of one line adds that line's value to the group-by-group sum. */
  lemma SumNewGroup(g: seq<FarmerGroup>, farmerId: string, line: LocalDb.OrderLine, f: LocalDb.OrderLine -> int)
    ensures Seqs.Sum(g + [FarmerGroup(farmerId, [line])], GroupSum(f)) == Seqs.Sum(g, GroupSum(f)) + f(line)
  {
    var gn := FarmerGroup(farmerId, [line]);
    Seqs.SumAppend(g, [gn], GroupSum(f));
    assert Seqs.Sum([gn], GroupSum(f)) == GroupSum(f)(gn);
    assert [line][1..] == [];
    assert GroupSum(f)(gn) == f(line) + Seqs.Sum([line][1..], f);
  }

  /** The lines of all groups, one group after another: the order in which checkout applies them. */
  function AllLines(groups: seq<FarmerGroup>): seq<LocalDb.OrderLine>
    decreases |groups|
  {
    if groups == [] then [] else groups[0].lines + AllLines(groups[1..])
  }

  lemma {:induction false} SumAllLines(groups: seq<FarmerGroup>, f: LocalDb.OrderLine -> int)
    ensures Seqs.Sum(AllLines(groups), f) == Seqs.Sum(groups, GroupSum(f))
    decreases |groups|
  {
    if groups != [] {
      SumAllLines(groups[1..], f);
      Seqs.SumAppend(groups[0].lines, AllLines(groups[1..]), f);
    }
  }

  /**
   * Creating the groups' orders in any other order (as `Object.entries`
   * does for integer-like farmer ids) leaves the same stock.
   */
  lemma GroupOrderFree(ps: seq<LocalDb.Product>, groups: seq<FarmerGroup>, reordered: seq<FarmerGroup>)
    requires multiset(groups) == multiset(reordered)
    ensures LocalDb.ApplyLines(ps, AllLines(groups)) == LocalDb.ApplyLines(ps, AllLines(reordered))
  {
    forall id
      ensures LocalDb.Hits(AllLines(groups), id) == LocalDb.Hits(AllLines(reordered), id)
      ensures LocalDb.Demand(AllLines(groups), id) == LocalDb.Demand(AllLines(reordered), id)
    {
      SumAllLines(groups, LocalDb.HitOf(id));
      SumAllLines(reordered, LocalDb.HitOf(id));
      Seqs.SumPermutation(groups, reordered, GroupSum(LocalDb.HitOf(id)));
      SumAllLines(groups, LocalDb.QuantityOf(id));
      SumAllLines(reordered, LocalDb.QuantityOf(id));
      Seqs.SumPermutation(groups, reordered, GroupSum(LocalDb.QuantityOf(id)));
    }
    LocalDb.ApplyLinesByTotals(ps, AllLines(groups), AllLines(reordered));
  }

  // ------------------------------------------------------------------ checkout

  /** The order `createOrder` records for one farmer's group. */
  function OrderFor(consumerId: string, g: FarmerGroup, id: string): LocalDb.Order {
    LocalDb.Order(id, consumerId, g.farmerId, g.lines, "pending", OrderTotal(g.lines))
  }

  /** The orders the `forEach` records, one per group in group order; the k-th takes the id `idFor(next + k)`. */
  function NewOrders(consumerId: string, groups: seq<FarmerGroup>, idFor: nat -> string, next: nat): (r: seq<LocalDb.Order>)
    ensures |r| == |groups|
    decreases |groups|
  {
    if groups == [] then []
    else [OrderFor(consumerId, groups[0], idFor(next))] + NewOrders(consumerId, groups[1..], idFor, next + 1)
  }

  /** The k-th new order belongs to the k-th group and takes the k-th id after `next`. */
  lemma {:induction false} NewOrdersAt(consumerId: string, groups: seq<FarmerGroup>, idFor: nat -> string, next: nat)
    ensures forall k :: 0 <= k < |groups| ==>
      NewOrders(consumerId, groups, idFor, next)[k] == OrderFor(consumerId, groups[k], idFor(next + k))
    decreases |groups|
  {
    if groups != [] {
      NewOrdersAt(consumerId, groups[1..], idFor, next + 1);
      var os := NewOrders(consumerId, groups, idFor, next);
      forall k | 0 < k < |groups|
        ensures os[k] == OrderFor(consumerId, groups[k], idFor(next + k))
      {
        assert os[k] == NewOrders(consumerId, groups[1..], idFor, next + 1)[k - 1];
        assert groups[1..][k - 1] == groups[k];
      }
    }
  }

  /**
   * The `forEach` over the groups: one `createOrder` per group, in group order.
   * db.ts draws each order id itself; here `idFor(k)` is the id of the k-th order.
   */
  function CreateAll(db: LocalDb.Store, consumerId: string, groups: seq<FarmerGroup>,
                     idFor: nat -> string, next: nat): (r: LocalDb.Store)
    ensures r.users == db.users && r.reviews == db.reviews
    ensures r.orders == db.orders + NewOrders(consumerId, groups, idFor, next)
    ensures r.products == LocalDb.ApplyLines(db.products, AllLines(groups))
    decreases |groups|
  {
    if groups == [] then db
    else
      var g := groups[0];
      var o := OrderFor(consumerId, g, idFor(next));
      var db1 := LocalDb.CreateOrder(db, o.id, consumerId, g.farmerId, g.lines, "pending", o.totalAmount).0;
      LocalDb.ApplyLinesAppend(db.products, g.lines, AllLines(groups[1..]));
      CreateAll(db1, consumerId, groups[1..], idFor, next + 1)
  }

  /** The outcome of a click on "Place order": the storage afterwards and where the page navigates, if anywhere. */
  datatype Checkout = Checkout(storage: Storage, navigate: Option<string>)

  /** Only a signed-in consumer may check out. */
  predicate MayCheckOut(s: Storage) {
    CurrentUser(s.user).Some? && CurrentUser(s.user).value.role == "consumer"
  }

  /**
   * `handlePlaceOrder` with `createOrder` bound to db.ts: anyone but a
   * signed-in consumer is sent to the login page with `/cart` as the return
   * address; a consumer gets one order per farmer, an empty cart, and the
   * product list.
   */
  function PlaceOrder(s: Storage, idFor: nat -> string): (r: Checkout)
    ensures !MayCheckOut(s) ==> r == Checkout(s.(returnUrl := Some("/cart")), Some("/login"))
    ensures MayCheckOut(s) ==> r.navigate == Some("/products") && r.storage.cart == []
    ensures MayCheckOut(s) ==> r.storage.user == s.user && r.storage.returnUrl == s.returnUrl
    ensures MayCheckOut(s) ==> r.storage.db.users == s.db.users && r.storage.db.reviews == s.db.reviews
  {
    if !MayCheckOut(s) then Checkout(s.(returnUrl := Some("/cart")), Some("/login"))
    else
      var user := CurrentUser(s.user).value;
      var db := CreateAll(s.db, user.id, GroupByFarmer(s.cart), idFor, 0);
      Checkout(s.(cart := [], db := db), Some("/products"))
  }

  function TotalOf(o: LocalDb.Order): int {
    o.totalAmount
  }

  lemma {:induction false} OrdersTotal(os: seq<LocalDb.Order>, groups: seq<FarmerGroup>)
    requires |os| == |groups|
    requires forall k :: 0 <= k < |groups| ==> os[k].totalAmount == OrderTotal(groups[k].lines)
    ensures Seqs.Sum(os, TotalOf) == Seqs.Sum(groups, GroupSum(LineTotal))
    decreases |os|
  {
    if os != [] {
      OrdersTotal(os[1..], groups[1..]);
    }
  }

  /** Each order checkout records is a pending order of the consumer holding one farmer's lines and their total. */
  lemma CheckoutOrderLines(cart: seq<CartItem>, consumerId: string, idFor: nat -> string)
    ensures var os := NewOrders(consumerId, GroupByFarmer(cart), idFor, 0);
            forall k :: 0 <= k < |os| ==>
              && os[k].consumerId == consumerId
              && os[k].status == "pending"
              && os[k].products == Lines(ItemsOf(cart, os[k].farmerId))
              && os[k].totalAmount == OrderTotal(os[k].products)
  {
    NewOrdersAt(consumerId, GroupByFarmer(cart), idFor, 0);
    GroupByFarmerPartitions(cart);
  }

  /** The orders checkout records name every farmer of the cart exactly once. */
  lemma CheckoutOrderFarmers(cart: seq<CartItem>, consumerId: string, idFor: nat -> string)
    ensures var os := NewOrders(consumerId, GroupByFarmer(cart), idFor, 0);
            && (forall j, k :: 0 <= j < k < |os| ==> os[j].farmerId != os[k].farmerId)
            && (set k | 0 <= k < |os| :: os[k].farmerId) == FarmerIds(cart)
  {
    var groups := GroupByFarmer(cart);
    var os := NewOrders(consumerId, groups, idFor, 0);
    NewOrdersAt(consumerId, groups, idFor, 0);
    GroupByFarmerPartitions(cart);
    assert forall k :: 0 <= k < |os| ==> os[k].farmerId == groups[k].farmerId;
    assert (set k | 0 <= k < |os| :: os[k].farmerId) == GroupIds(groups);
  }

  /** The totals of the orders checkout records add up to the cart total. */
  lemma CheckoutOrderTotals(cart: seq<CartItem>, consumerId: string, idFor: nat -> string)
    ensures Seqs.Sum(NewOrders(consumerId, GroupByFarmer(cart), idFor, 0), TotalOf) == CartTotal(cart)
  {
    var groups := GroupByFarmer(cart);
    NewOrdersAt(consumerId, groups, idFor, 0);
    OrdersTotal(NewOrders(consumerId, groups, idFor, 0), groups);
    GroupedSum(cart, LineTotal);
    CartTotalIsLinesTotal(cart);
  }

  /**
   * The orders checkout records for a cart: pending orders of the consumer,
   * one per farmer in the cart, each holding that farmer's lines and their
   * total, the totals adding up to the cart total.
   */
  lemma CheckoutOrders(cart: seq<CartItem>, consumerId: string, idFor: nat -> string)
    ensures var os := NewOrders(consumerId, GroupByFarmer(cart), idFor, 0);
            && (forall k :: 0 <= k < |os| ==>
                  && os[k].consumerId == consumerId
                  && os[k].status == "pending"
                  && os[k].products == Lines(ItemsOf(cart, os[k].farmerId))
                  && os[k].totalAmount == OrderTotal(os[k].products))
            && (forall j, k :: 0 <= j < k < |os| ==> os[j].farmerId != os[k].farmerId)
            && (set k | 0 <= k < |os| :: os[k].farmerId) == FarmerIds(cart)
            && Seqs.Sum(os, TotalOf) == CartTotal(cart)
  {
    CheckoutOrderLines(cart, consumerId, idFor);
    CheckoutOrderFarmers(cart, consumerId, idFor);
    CheckoutOrderTotals(cart, consumerId, idFor);
  }

  /** Checkout keeps the existing orders in front and appends the cart's orders after them. */
  lemma PlaceOrderRecords(s: Storage, idFor: nat -> string)
    requires MayCheckOut(s)
    ensures var after := PlaceOrder(s, idFor).storage.db.orders;
            var added := after[|s.db.orders|..];
            && |after| == |s.db.orders| + |FarmerIds(s.cart)|
            && after[..|s.db.orders|] == s.db.orders
            && (forall k :: 0 <= k < |added| ==>
                  && added[k].consumerId == CurrentUser(s.user).value.id
                  && added[k].status == "pending"
                  && added[k].products == Lines(ItemsOf(s.cart, added[k].farmerId))
                  && added[k].totalAmount == OrderTotal(added[k].products))
            && (forall j, k :: 0 <= j < k < |added| ==> added[j].farmerId != added[k].farmerId)
            && (set k | 0 <= k < |added| :: added[k].farmerId) == FarmerIds(s.cart)
            && Seqs.Sum(added, TotalOf) == CartTotal(s.cart)
  {
    var user := CurrentUser(s.user).value;
    var groups := GroupByFarmer(s.cart);
    var os := NewOrders(user.id, groups, idFor, 0);
    var after := PlaceOrder(s, idFor).storage.db.orders;
    assert after == s.db.orders + os;
    assert after[|s.db.orders|..] == os;
    CheckoutOrders(s.cart, user.id, idFor);
    GroupByFarmerPartitions(s.cart);
    DistinctCount(groups);
  }

  /** Groups with distinct farmers are as many as their farmer ids. */
  lemma {:induction false} DistinctCount(groups: seq<FarmerGroup>)
    requires DistinctFarmers(groups)
    ensures |GroupIds(groups)| == |groups|
    decreases |groups|
  {
    if groups != [] {
      var pre := groups[..|groups| - 1];
      var last := groups[|groups| - 1];
      assert groups == pre + [last];
      DistinctCount(pre);
      GroupIdsSnoc(pre, last);
      assert last.farmerId !in GroupIds(pre);
    }
  }

  /**
   * What checkout does to the stock: every product ends as if the cart's
   * lines had been taken from it in cart order (the first product with an
   * id loses the whole quantity ordered of it, without a lower bound).
   */
  lemma PlaceOrderStock(s: Storage, idFor: nat -> string)
    requires MayCheckOut(s)
    ensures var after := PlaceOrder(s, idFor).storage.db.products;
            && |after| == |s.db.products|
            && forall i :: 0 <= i < |s.db.products| ==> after[i] == LocalDb.Restocked(s.db.products, Lines(s.cart), i)
  {
    var ps := s.db.products;
    var all := AllLines(GroupByFarmer(s.cart));
    forall id
      ensures LocalDb.Hits(all, id) == LocalDb.Hits(Lines(s.cart), id)
      ensures LocalDb.Demand(all, id) == LocalDb.Demand(Lines(s.cart), id)
    {
      GroupedDemand(s.cart, id);
    }
    LocalDb.ApplyLinesByTotals(ps, all, Lines(s.cart));
    LocalDb.ApplyLinesEffect(ps, Lines(s.cart));
  }

  /** The groups' lines, taken together, name each product as often and ask as much of it as the cart's lines. */
  lemma GroupedDemand(cart: seq<CartItem>, id: string)
    ensures LocalDb.Hits(AllLines(GroupByFarmer(cart)), id) == LocalDb.Hits(Lines(cart), id)
    ensures LocalDb.Demand(AllLines(GroupByFarmer(cart)), id) == LocalDb.Demand(Lines(cart), id)
  {
    var groups := GroupByFarmer(cart);
    SumAllLines(groups, LocalDb.HitOf(id));
    GroupedSum(cart, LocalDb.HitOf(id));
    SumAllLines(groups, LocalDb.QuantityOf(id));
    GroupedSum(cart, LocalDb.QuantityOf(id));
  }

  // ------------------------------------------------------------------ as written

  /**
   * `handlePlaceOrder` as the file is written: it calls `createOrder` without
   * importing it, so the first call throws a ReferenceError, the `catch`
   * shows an alert, and nothing is stored or cleared.
   */
  function PlaceOrderAsWritten(s: Storage): (r: Checkout)
    ensures !MayCheckOut(s) ==> r == Checkout(s.(returnUrl := Some("/cart")), Some("/login"))
    ensures MayCheckOut(s) && s.cart == [] ==> r == Checkout(s.(cart := []), Some("/products"))
    ensures MayCheckOut(s) && s.cart != [] ==> r == Checkout(s, None)
  {
    if !MayCheckOut(s) then Checkout(s.(returnUrl := Some("/cart")), Some("/login"))
    else if GroupByFarmer(s.cart) == [] then Checkout(s.(cart := []), Some("/products"))
    else Checkout(s, None)
  }

  /** A consumer with a non-empty cart never gets an order recorded by the page as written. */
  lemma MissingImportLosesOrders(s: Storage, idFor: nat -> string)
    requires MayCheckOut(s) && s.cart != []
    ensures PlaceOrderAsWritten(s).storage.db.orders == s.db.orders
    ensures PlaceOrderAsWritten(s).navigate == None
    ensures |PlaceOrder(s, idFor).storage.db.orders| > |s.db.orders|
  {
  }
}

=== FILE: crud.dfy ===
/**
 * The outcome rules shared by the user, product, order and review routes of
 * server/src/api/routes.ts, over an abstract collection: a map from id to
 * document. Each resource supplies its own validation.
 */
module Crud {
  import opened Options

  /** An HTTP status and, where the route sends one, the document in the body. */
  datatype Response<R> = Response(status: int, body: Option<R>)

  const Ok := 200
  const Created := 201
  const BadRequest := 400
  const NotFound := 404

  type Collection<R> = map<string, R>

  /** GET /x/:id: the document, or 404. */
  function Get<R>(db: Collection<R>, id: string): (r: Response<R>)
    ensures r.status == Ok <==> id in db
    ensures r.status == NotFound <==> id !in db
    ensures r.body.Some? <==> id in db
    ensures id in db ==> r.body.value == db[id]
  {
    if id in db then Response(Ok, Some(db[id])) else Response(NotFound, None)
  }

  /**
   * POST /x: `save()` stores a document that passes validation under a fresh
   * id (201); a failure is caught and answered with 400, nothing stored.
   */
  function Create<R>(db: Collection<R>, id: string, doc: R, valid: R -> bool): (r: (Collection<R>, Response<R>))
    requires id !in db
    ensures r.1.status == Created <==> valid(doc)
    ensures r.1.status == BadRequest <==> !valid(doc)
    ensures valid(doc) ==> r.0 == db[id := doc] && r.1.body == Some(doc)
    ensures !valid(doc) ==> r.0 == db
  {
    if valid(doc) then (db[id := doc], Response(Created, Some(doc))) else (db, Response(BadRequest, None))
  }

  /**
   * PUT /x/:id: `findByIdAndUpdate(id, body, { new: true, runValidators: true })`.
   * The update validators check the paths the body sets before the lookup,
   * so an invalid body is answered with 400 even for an absent id; an absent
   * id is 404; otherwise the merged document is stored and returned.
   */
  function Update<R, P>(db: Collection<R>, id: string, patch: P, pathsValid: P -> bool, apply: (R, P) -> R): (r: (Collection<R>, Response<R>))
    ensures r.0.Keys == db.Keys
    ensures r.1.status == BadRequest <==> !pathsValid(patch)
    ensures r.1.status == NotFound <==> pathsValid(patch) && id !in db
    ensures r.1.status == Ok <==> pathsValid(patch) && id in db
    ensures r.1.status != Ok ==> r.0 == db
    ensures r.1.status == Ok ==> r.0 == db[id := apply(db[id], patch)] && r.1.body == Some(r.0[id])
  {
    if !pathsValid(patch) then (db, Response(BadRequest, None))
    else if id !in db then (db, Response(NotFound, None))
    else
      var doc := apply(db[id], patch);
      (db[id := doc], Response(Ok, Some(doc)))
  }

  /** DELETE /x/:id: the document is removed (200), or 404 when there is none. */
  function Delete<R>(db: Collection<R>, id: string): (r: (Collection<R>, Response<R>))
    ensures r.1.status == Ok <==> id in db
    ensures r.1.status == NotFound <==> id !in db
    ensures r.0.Keys == db.Keys - {id}
    ensures forall k :: k in r.0 ==> r.0[k] == db[k]
  {
    if id in db then (db - {id}, Response(Ok, None)) else (db, Response(NotFound, None))
  }

  /** An absent id is 404 for GET, PUT with a valid body, and DELETE, and nothing changes. */
  lemma AbsentIdNotFound<R, P>(db: Collection<R>, id: string, patch: P, pathsValid: P -> bool, apply: (R, P) -> R)
    requires id !in db && pathsValid(patch)
    ensures Get(db, id).status == NotFound
    ensures Update(db, id, patch, pathsValid, apply) == (db, Response(NotFound, None))
    ensures Delete(db, id) == (db, Response(NotFound, None))
  {
  }

  /** Deleting the same id twice: the second answer is 404 and changes nothing. */
  lemma DeleteTwice<R>(db: Collection<R>, id: string)
    ensures var once := Delete(db, id).0;
            Delete(once, id).1.status == NotFound && Delete(once, id).0 == once
  {
  }

  /** What a successful create stored is what GET returns for its id. */
  lemma GetAfterCreate<R>(db: Collection<R>, id: string, doc: R, valid: R -> bool)
    requires id !in db && valid(doc)
    ensures Get(Create(db, id, doc, valid).0, id) == Response(Ok, Some(doc))
  {
  }

  /** After a delete, GET of that id is 404 and every other id reads as before. */
  lemma GetAfterDelete<R>(db: Collection<R>, id: string, other: string)
    requires other != id
    ensures Get(Delete(db, id).0, id).status == NotFound
    ensures Get(Delete(db, id).0, other) == Get(db, other)
  {
  }
}

=== FILE: farmer_dashboard.dfy ===
/**
 * The farmer dashboard (src/pages/FarmerDashboard.tsx): the product form's
 * submit (create or edit), delete, and the stock field's parsing. The page
 * works on products as the server returns them, identified by `_id`.
 */
module FarmerDashboard {
  import opened Options
  import Seqs
  import Text
  import opened Browser

  /** A JavaScript number as the form holds it: `NaN` (from `parseFloat`) or a value. */
  datatype JsNumber = NaN | Num(value: real)

  /** A product as the server returns it; `objectId` is its `_id`. */
  datatype DashProduct = DashProduct(objectId: string, name: string, price: real, stock: real, image: string, available: bool)

  /** The form state `newProduct`. */
  datatype Form = Form(name: string, description: string, price: JsNumber, category: string,
                       image: string, available: bool, stock: JsNumber)

  /** The signed-in user the page reads from storage; `objectId` is its `_id`. */
  datatype DashUser = DashUser(objectId: string, role: string)

  /** The JSON body of the PUT or POST; `farmId` is sent on create only. */
  datatype Body = Body(name: string, description: string, price: real, category: string,
                       image: string, stock: real, available: bool, farmId: Option<string>)

  datatype ProductRequest = Put(objectId: string, body: Body) | Post(body: Body)

  const DefaultImage := "https://images.unsplash.com/photo-1556742393-75aa5a16b0c3"

  const EmptyForm := Form("", "", Num(0.0), "vegetables", "", true, Num(0.0))

  /** `x || 0` on a number: `NaN` and 0 are falsy. */
  function OrZero(n: JsNumber): (r: real)
    ensures n.Num? && n.value != 0.0 ==> r == n.value
    ensures !(n.Num? && n.value != 0.0) ==> r == 0.0
  {
    match n
    case NaN => 0.0
    case Num(v) => v
  }

  /** `image || default`: the empty string is falsy. */
  function ImageOrDefault(image: string): (r: string)
    ensures r != []
    ensures image != [] ==> r == image
  {
    if image == [] then DefaultImage else image
  }

  /** The body the form submits: price and stock default to 0, the image to the stock photo. */
  function SubmitBody(form: Form, farmId: Option<string>): (b: Body)
    ensures b.price == OrZero(form.price) && b.stock == OrZero(form.stock)
    ensures b.image == ImageOrDefault(form.image) && b.image != []
    ensures b.name == form.name && b.description == form.description && b.category == form.category
    ensures b.available == form.available && b.farmId == farmId
  {
    Body(form.name, form.description, OrZero(form.price), form.category,
         ImageOrDefault(form.image), OrZero(form.stock), form.available, farmId)
  }

  /** The page state `handleSubmit` touches. */
  datatype Page = Page(products: seq<DashProduct>, editing: Option<DashProduct>, form: Form)

  /** What a submission leaves: the page, the request sent (if any), and where the page navigates (if anywhere). */
  datatype SubmitOutcome = SubmitOutcome(page: Page, request: Option<ProductRequest>, navigate: Option<string>)

  function Replace(objectId: string, updated: DashProduct): DashProduct -> DashProduct {
    (p: DashProduct) => if p.objectId == objectId then updated else p
  }

  /**
   * `handleSubmit`, with the server's answer as input: without a user the
   * page goes to the login; an edit PUTs the form and swaps the answer in
   * for every listed product with the edited `_id`; a create POSTs the form
   * with the user's id as farm and appends the answer. Either success resets
   * the form; a failure (alert) leaves the page as it was.
   */
  function Submit(page: Page, user: Option<DashUser>, reply: Reply<DashProduct>): (o: SubmitOutcome)
    ensures user.None? ==> o == SubmitOutcome(page, None, Some("/login"))
    ensures user.Some? ==> o.navigate == None && o.request.Some?
    ensures user.Some? && page.editing.Some? ==>
      o.request == Some(Put(page.editing.value.objectId, SubmitBody(page.form, None)))
    ensures user.Some? && page.editing.None? ==>
      o.request == Some(Post(SubmitBody(page.form, Some(user.value.objectId))))
    ensures user.Some? && !reply.Ok? ==> o.page == page
    ensures user.Some? && reply.Ok? ==> o.page.form == EmptyForm && o.page.editing == None
    ensures user.Some? && reply.Ok? && page.editing.None? ==> o.page.products == page.products + [reply.value]
    ensures user.Some? && reply.Ok? && page.editing.Some? ==>
      && |o.page.products| == |page.products|
      && forall i :: 0 <= i < |page.products| ==>
           o.page.products[i] == if page.products[i].objectId == page.editing.value.objectId then reply.value else page.products[i]
  {
    match user
    case None => SubmitOutcome(page, None, Some("/login"))
    case Some(u) =>
      match page.editing
      case Some(e) =>
        var request := Put(e.objectId, SubmitBody(page.form, None));
        if reply.Ok? then
          var products := Seqs.Map(page.products, Replace(e.objectId, reply.value));
          SubmitOutcome(Page(products, None, EmptyForm), Some(request), None)
        else SubmitOutcome(page, Some(request), None)
      case None =>
        var request := Post(SubmitBody(page.form, Some(u.objectId)));
        if reply.Ok? then SubmitOutcome(page.(products := page.products + [reply.value], form := EmptyForm), Some(request), None)
        else SubmitOutcome(page, Some(request), None)
  }

  function Keeps(objectId: string): DashProduct -> bool {
    (p: DashProduct) => p.objectId != objectId
  }

  /**
   * `handleDelete`: nothing happens unless the user confirms and the server
   * answers 2xx; then every listed product with that `_id` leaves the list,
   * and every other one stays, in its order.
   */
  function Delete(products: seq<DashProduct>, objectId: string, confirmed: bool, deleted: Reply<()>): (r: seq<DashProduct>)
    ensures !(confirmed && deleted.Ok?) ==> r == products
    ensures confirmed && deleted.Ok? ==> forall p :: p in r <==> p in products && p.objectId != objectId
    ensures confirmed && deleted.Ok? ==> |r| == Seqs.Count(products, Keeps(objectId))
    ensures Seqs.IsSubsequence(r, products)
  {
    Seqs.SubsequenceRefl(products);
    if confirmed && deleted.Ok? then Seqs.Filter(products, Keeps(objectId)) else products
  }

  /** Editing a product and then deleting it leaves the list a delete alone leaves. */
  lemma {:induction false} EditThenDelete(products: seq<DashProduct>, objectId: string, updated: DashProduct)
    requires updated.objectId == objectId
    ensures Seqs.Filter(Seqs.Map(products, Replace(objectId, updated)), Keeps(objectId)) == Seqs.Filter(products, Keeps(objectId))
    decreases |products|
  {
    if products != [] {
      var f := Replace(objectId, updated);
      assert Seqs.Map(products, f) == [f(products[0])] + Seqs.Map(products[1..], f);
      EditThenDelete(products[1..], objectId, updated);
    }
  }

  /** The stock field: `value === '' ? 0 : parseInt(value, 10) || 0`. */
  function StockInput(value: string): (n: int)
    ensures value == [] ==> n == 0
    ensures Text.ParseInt(value) == None ==> n == 0
    ensures Text.ParseInt(value).Some? ==> n == Text.ParseInt(value).value
  {
    if value == [] then 0
    else match Text.ParseInt(value)
      case None => 0
      case Some(v) => v
  }

  /** A stock typed as a whole number, signed or not, is read back as that number. */
  lemma StockInputRoundTrip(n: nat)
    ensures StockInput(Text.DecimalString(n)) == n
    ensures StockInput("-" + Text.DecimalString(n)) == -(n as int)
  {
    var d := Text.DecimalString(n);
    assert d + [] == d;
    Text.ParseIntDecimal(n, []);
    assert Text.ParseInt(d) == Some(n);
    Text.ParseIntNegative(n);
    assert Text.ParseInt("-" + d) == Some(-(n as int));
  }
}

=== FILE: layout.dfy ===
/**
 * The page frame (src/components/Layout.tsx): the navigation links the
 * signed-in user's role unlocks, and logout.
 */
module Layout {
  import opened Options
  import opened Browser

  datatype NavLink = NavLink(name: string, href: string)

  const Home := NavLink("Home", "/")
  const Products := NavLink("Products", "/products")
  const FarmerDashboard := NavLink("Farmer Dashboard", "/farmer/dashboard")
  const AdminDashboard := NavLink("Admin Dashboard", "/admin/dashboard")

  predicate HasRole(slot: UserSlot, role: string) {
    CurrentUser(slot).Some? && CurrentUser(slot).value.role == role
  }

  /** `navLinks`: Home and Products, then the dashboard of a farmer or an admin. */
  function NavLinks(slot: UserSlot): (links: seq<NavLink>)
    ensures 2 <= |links| <= 3
    ensures links[0] == Home && links[1] == Products
    ensures FarmerDashboard in links <==> HasRole(slot, "farmer")
    ensures AdminDashboard in links <==> HasRole(slot, "admin")
  {
    [Home, Products]
    + (if HasRole(slot, "farmer") then [FarmerDashboard] else [])
    + (if HasRole(slot, "admin") then [AdminDashboard] else [])
  }

  /** `handleLogout`: the stored user is removed and the page goes to `/login`. */
  function Logout(s: Storage): (r: (Storage, string))
    ensures r.0 == s.(user := Unset) && r.1 == "/login"
    ensures CurrentUser(r.0.user) == None
  {
    (s.(user := Unset), "/login")
  }

  /** After logout only the two public links remain. */
  lemma LogoutHidesDashboards(s: Storage)
    ensures NavLinks(Logout(s).0.user) == [Home, Products]
  {
  }
}

=== FILE: local_db.dfy ===
/**
 * The browser-local data store of `src/lib/db.ts`. The four JSON arrays it
 * keeps under the localStorage keys `users`, `products`, `orders` and
 * `reviews` are one explicit `Store` value; every operation returns the new
 * store instead of writing it back. Record ids, which the source draws from
 * `Math.random`, are parameters.
 */
module LocalDb {
  import opened Options
  import Seqs

  /** A product as db.ts stores it: `quantity` is the stock on hand, prices are cents. */
  datatype Product = Product(
    id: string, farmerId: string, name: string, description: string, price: int,
    category: string, imageUrl: string, available: bool, quantity: int)

  /** `Partial<Product>`: a present field overwrites, an absent one keeps the stored value. */
  datatype ProductPatch = ProductPatch(
    id: Option<string>, farmerId: Option<string>, name: Option<string>, description: Option<string>,
    price: Option<int>, category: Option<string>, imageUrl: Option<string>, available: Option<bool>,
    quantity: Option<int>)

  datatype OrderLine = OrderLine(productId: string, quantity: int, price: int)

  datatype Order = Order(
    id: string, consumerId: string, farmerId: string, products: seq<OrderLine>,
    status: string, totalAmount: int)

  datatype User = User(id: string, name: string, role: string)

  datatype Review = Review(id: string, productId: Option<string>, userId: string, rating: int, comment: string)

  datatype Store = Store(users: seq<User>, products: seq<Product>, orders: seq<Order>, reviews: seq<Review>)

  /** `createUser`: the new record is appended with the given fresh id. */
  function CreateUser(db: Store, id: string, name: string, role: string): (r: (Store, User))
    ensures r.1.id == id && r.1.name == name && r.1.role == role
    ensures r.0.users == db.users + [r.1]
    ensures r.0.products == db.products && r.0.orders == db.orders && r.0.reviews == db.reviews
  {
    var user := User(id, name, role);
    (db.(users := db.users + [user]), user)
  }

  /** `getUser`: the first user with the id, or `None` for `undefined`. */
  function GetUser(users: seq<User>, id: string): (r: Option<User>)
    ensures r.None? <==> forall i :: 0 <= i < |users| ==> users[i].id != id
    ensures r.Some? ==> exists i :: 0 <= i < |users| && users[i] == r.value && r.value.id == id
                                    && forall j :: 0 <= j < i ==> users[j].id != id
  {
    match Seqs.FirstIndex(users, (u: User) => u.id == id)
    case None => None
    case Some(i) => Some(users[i])
  }

  /** A user created under a fresh id is found under that id. */
  lemma GetUserAfterCreate(db: Store, id: string, name: string, role: string)
    requires forall i :: 0 <= i < |db.users| ==> db.users[i].id != id
    ensures GetUser(CreateUser(db, id, name, role).0.users, id) == Some(User(id, name, role))
  {
    var users := CreateUser(db, id, name, role).0.users;
    assert users[|db.users|].id == id;
  }

  // ---------------------------------------------------------------- products

  /** `createProduct`: the product is appended under the given fresh id. */
  function CreateProduct(db: Store, id: string, product: Product): (r: (Store, Product))
    ensures r.1 == product.(id := id)
    ensures r.0.products == db.products + [r.1]
    ensures r.0.users == db.users && r.0.orders == db.orders && r.0.reviews == db.reviews
  {
    var p := product.(id := id);
    (db.(products := db.products + [p]), p)
  }

  /** `ps[i]` is the first product carrying its id, so `find`/`findIndex` by that id land on it. */
  predicate FirstOfId(ps: seq<Product>, i: int)
    requires 0 <= i < |ps|
  {
    forall j :: 0 <= j < i ==> ps[j].id != ps[i].id
  }

  function HasId(id: string): Product -> bool {
    (p: Product) => p.id == id
  }

  /** The product after `quantity += change; available = quantity > 0`. */
  function Adjust(p: Product, change: int): (r: Product)
    ensures r.quantity == p.quantity + change
    ensures r.available <==> r.quantity > 0
    ensures r.(quantity := p.quantity, available := p.available) == p
  {
    p.(quantity := p.quantity + change, available := p.quantity + change > 0)
  }

  /**
   * `updateProductQuantity`: the first product with the id gets its stock
   * moved by `change` and its availability recomputed; a missing id yields
   * `None` (the source's `null`) and an unchanged list.
   */
  function UpdateProductQuantity(ps: seq<Product>, productId: string, change: int): (r: (seq<Product>, Option<Product>))
    ensures |r.0| == |ps|
    ensures forall i :: 0 <= i < |ps| ==>
      r.0[i] == if ps[i].id == productId && FirstOfId(ps, i) then Adjust(ps[i], change) else ps[i]
    ensures r.1.None? <==> forall i :: 0 <= i < |ps| ==> ps[i].id != productId
    ensures r.1.None? ==> r.0 == ps
    ensures r.1.Some? ==> exists i :: 0 <= i < |ps| && ps[i].id == productId && FirstOfId(ps, i)
                                      && r.1.value == Adjust(ps[i], change) == r.0[i]
  {
    match Seqs.FirstIndex(ps, HasId(productId))
    case None => (ps, None)
    case Some(i) =>
      var p := Adjust(ps[i], change);
      assert FirstOfId(ps, i);
      (ps[i := p], Some(p))
  }

  /** `{ ...p, ...updates }`. */
  function Patch(p: Product, u: ProductPatch): Product {
    Product(
      u.id.GetOr(p.id), u.farmerId.GetOr(p.farmerId), u.name.GetOr(p.name),
      u.description.GetOr(p.description), u.price.GetOr(p.price), u.category.GetOr(p.category),
      u.imageUrl.GetOr(p.imageUrl), u.available.GetOr(p.available), u.quantity.GetOr(p.quantity))
  }

  const NoChanges := ProductPatch(None, None, None, None, None, None, None, None, None)

  lemma PatchLaws(p: Product, u: ProductPatch)
    ensures Patch(p, NoChanges) == p
    ensures Patch(Patch(p, u), u) == Patch(p, u)
  {
  }

  /**
   * `updateProduct`: the patch is merged into the product at the first
   * index with the id, and only there; a missing id yields `None`.
   */
  function UpdateProduct(ps: seq<Product>, productId: string, updates: ProductPatch): (r: (seq<Product>, Option<Product>))
    ensures |r.0| == |ps|
    ensures forall i :: 0 <= i < |ps| ==>
      r.0[i] == if ps[i].id == productId && FirstOfId(ps, i) then Patch(ps[i], updates) else ps[i]
    ensures r.1.None? <==> forall i :: 0 <= i < |ps| ==> ps[i].id != productId
    ensures r.1.None? ==> r.0 == ps
    ensures r.1.Some? ==> exists i :: 0 <= i < |ps| && ps[i].id == productId && FirstOfId(ps, i)
                                      && r.1.value == Patch(ps[i], updates) == r.0[i]
  {
    match Seqs.FirstIndex(ps, HasId(productId))
    case None => (ps, None)
    case Some(i) =>
      var p := Patch(ps[i], updates);
      assert FirstOfId(ps, i);
      (ps[i := p], Some(p))
  }

  /** The condition the `filter` in `deleteProduct` keeps a product on. */
  function OtherThan(productId: string): Product -> bool {
    (p: Product) => p.id != productId
  }

  /**
   * `deleteProduct`: every product with the id is dropped, the rest keep
   * their order (each of them, duplicates included), and the flag says
   * whether anything was removed.
   */
  function DeleteProduct(ps: seq<Product>, productId: string): (r: (seq<Product>, bool))
    ensures forall p :: p in r.0 <==> p in ps && p.id != productId
    ensures Seqs.IsSubsequence(r.0, ps)
    ensures |r.0| == Seqs.Count(ps, OtherThan(productId))
    ensures r.1 <==> exists i :: 0 <= i < |ps| && ps[i].id == productId
  {
    var rest := Seqs.Filter(ps, OtherThan(productId));
    Seqs.FilterShrinks(ps, OtherThan(productId));
    (rest, |rest| < |ps|)
  }

  function FromFarmer(farmerId: string): Product -> bool {
    (p: Product) => p.farmerId == farmerId
  }

  /** `getFarmerProducts`: exactly the farmer's products, in stored order. */
  function GetFarmerProducts(ps: seq<Product>, farmerId: string): (r: seq<Product>)
    ensures forall p :: p in r <==> p in ps && p.farmerId == farmerId
    ensures Seqs.IsSubsequence(r, ps) && |r| == Seqs.Count(ps, FromFarmer(farmerId))
  {
    Seqs.Filter(ps, FromFarmer(farmerId))
  }

  // ------------------------------------------------------------------ orders

  function HitOf(productId: string): OrderLine -> int {
    (l: OrderLine) => if l.productId == productId then 1 else 0
  }

  function QuantityOf(productId: string): OrderLine -> int {
    (l: OrderLine) => if l.productId == productId then l.quantity else 0
  }

  /** How many lines name the product. */
  function Hits(lines: seq<OrderLine>, productId: string): int {
    Seqs.Sum(lines, HitOf(productId))
  }

  /** The total quantity the lines ask of the product. */
  function Demand(lines: seq<OrderLine>, productId: string): int {
    Seqs.Sum(lines, QuantityOf(productId))
  }

  lemma {:induction false} NoHitsNoDemand(lines: seq<OrderLine>, productId: string)
    ensures Hits(lines, productId) >= 0
    ensures Hits(lines, productId) == 0 ==> Demand(lines, productId) == 0
    decreases |lines|
  {
    if lines != [] {
      NoHitsNoDemand(lines[1..], productId);
    }
  }

  /**
   * Product `i` after every line has been applied: the first product with
   * a given id loses the whole demand for that id (no lower bound), and
   * its availability is recomputed if any line named it.
   */
  function Restocked(ps: seq<Product>, lines: seq<OrderLine>, i: int): Product
    requires 0 <= i < |ps|
  {
    if FirstOfId(ps, i) && Hits(lines, ps[i].id) > 0 then Adjust(ps[i], -Demand(lines, ps[i].id)) else ps[i]
  }

  /** `updateProductQuantity(line.productId, -line.quantity)`, keeping only the new list. */
  function Take(ps: seq<Product>, line: OrderLine): seq<Product> {
    UpdateProductQuantity(ps, line.productId, -line.quantity).0
  }

  /** The stock loop of `createOrder`: `updateProductQuantity(line.productId, -line.quantity)` per line, in order. */
  function ApplyLines(ps: seq<Product>, lines: seq<OrderLine>): seq<Product>
    decreases |lines|
  {
    if lines == [] then ps
    else ApplyLines(Take(ps, lines[0]), lines[1..])
  }

  /** Two lists that agree on every id agree on which index is first for its id. */
  lemma SameIdsSameFirst(ps: seq<Product>, qs: seq<Product>, i: int)
    requires |ps| == |qs| && 0 <= i < |ps|
    requires forall j :: 0 <= j < |ps| ==> qs[j].id == ps[j].id
    ensures FirstOfId(qs, i) == FirstOfId(ps, i)
  {
  }

  /** One step of the stock loop, seen from product `i`. */
  lemma StepEffect(ps: seq<Product>, lines: seq<OrderLine>, i: int)
    requires lines != [] && 0 <= i < |ps|
    ensures |Take(ps, lines[0])| == |ps|
    ensures Restocked(Take(ps, lines[0]), lines[1..], i) == Restocked(ps, lines, i)
  {
    var l := lines[0];
    var rest := lines[1..];
    var id := ps[i].id;
    var ps1 := Take(ps, l);
    assert ps1[i] == if id == l.productId && FirstOfId(ps, i) then Adjust(ps[i], -l.quantity) else ps[i];
    assert ps1[i].id == id;
    SameIdsSameFirst(ps, ps1, i);
    NoHitsNoDemand(rest, id);
    assert Hits(lines, id) == HitOf(id)(l) + Hits(rest, id);
    assert Demand(lines, id) == QuantityOf(id)(l) + Demand(rest, id);
  }

  lemma {:induction false} ApplyLinesEffect(ps: seq<Product>, lines: seq<OrderLine>)
    ensures |ApplyLines(ps, lines)| == |ps|
    ensures forall i :: 0 <= i < |ps| ==> ApplyLines(ps, lines)[i] == Restocked(ps, lines, i)
    decreases |lines|
  {
    if lines != [] {
      var ps1 := Take(ps, lines[0]);
      var r := ApplyLines(ps1, lines[1..]);
      assert ApplyLines(ps, lines) == r;
      ApplyLinesEffect(ps1, lines[1..]);
      forall i | 0 <= i < |ps|
        ensures r[i] == Restocked(ps, lines, i)
      {
        StepEffect(ps, lines, i);
      }
    }
  }

  /**
   * The stock loop depends on the lines only through how often each id is
   * named and how much of it is asked, so any two line lists that agree on
   * those leave the same products.
   */
  lemma ApplyLinesByTotals(ps: seq<Product>, a: seq<OrderLine>, b: seq<OrderLine>)
    requires forall id :: Hits(a, id) == Hits(b, id)
    requires forall id :: Demand(a, id) == Demand(b, id)
    ensures ApplyLines(ps, a) == ApplyLines(ps, b)
  {
    ApplyLinesEffect(ps, a);
    ApplyLinesEffect(ps, b);
    var ra, rb := ApplyLines(ps, a), ApplyLines(ps, b);
    forall i | 0 <= i < |ps|
      ensures ra[i] == rb[i]
    {
      assert Hits(a, ps[i].id) == Hits(b, ps[i].id);
      assert Demand(a, ps[i].id) == Demand(b, ps[i].id);
    }
  }

  /** The order in which the lines are applied does not change the stock. */
  lemma ApplyLinesOrderFree(ps: seq<Product>, a: seq<OrderLine>, b: seq<OrderLine>)
    requires multiset(a) == multiset(b)
    ensures ApplyLines(ps, a) == ApplyLines(ps, b)
  {
    forall id
      ensures Hits(a, id) == Hits(b, id) && Demand(a, id) == Demand(b, id)
    {
      Seqs.SumPermutation(a, b, HitOf(id));
      Seqs.SumPermutation(a, b, QuantityOf(id));
    }
    ApplyLinesByTotals(ps, a, b);
  }

  lemma {:induction false} ApplyLinesAppend(ps: seq<Product>, a: seq<OrderLine>, b: seq<OrderLine>)
    ensures ApplyLines(ps, a + b) == ApplyLines(ApplyLines(ps, a), b)
    decreases |a|
  {
    if a == [] {
      assert a + b == b;
    } else {
      var ps1 := Take(ps, a[0]);
      assert (a + b)[0] == a[0] && (a + b)[1..] == a[1..] + b;
      assert ApplyLines(ps, a + b) == ApplyLines(ps1, a[1..] + b);
      ApplyLinesAppend(ps1, a[1..], b);
    }
  }

  /**
   * `createOrder`: exactly one order is appended, and every product a line
   * names loses the ordered quantity, even below zero.
   */
  function CreateOrder(db: Store, id: string, consumerId: string, farmerId: string,
                       lines: seq<OrderLine>, status: string, totalAmount: int): (r: (Store, Order))
    ensures r.1 == Order(id, consumerId, farmerId, lines, status, totalAmount)
    ensures r.0.orders == db.orders + [r.1]
    ensures r.0.users == db.users && r.0.reviews == db.reviews
    ensures |r.0.products| == |db.products|
    ensures forall i :: 0 <= i < |db.products| ==> r.0.products[i] == Restocked(db.products, lines, i)
  {
    ApplyLinesEffect(db.products, lines);
    var order := Order(id, consumerId, farmerId, lines, status, totalAmount);
    (db.(products := ApplyLines(db.products, lines), orders := db.orders + [order]), order)
  }

  /** Two orders of 4 against a stock of 5 are both accepted and leave the stock at -3. */
  lemma CreateOrderOversells(p: Product, db: Store)
    requires p.quantity == 5 && db.products == [p]
    ensures var lines := [OrderLine(p.id, 4, p.price)];
            var db1 := CreateOrder(db, "o1", "c1", p.farmerId, lines, "pending", 4 * p.price).0;
            var db2 := CreateOrder(db1, "o2", "c2", p.farmerId, lines, "pending", 4 * p.price).0;
            |db2.orders| == |db.orders| + 2 && db2.products[0].quantity == -3 && !db2.products[0].available
  {
    var lines := [OrderLine(p.id, 4, p.price)];
    assert lines[1..] == [];
    assert Hits(lines[1..], p.id) == 0 && Demand(lines[1..], p.id) == 0;
    assert Hits(lines, p.id) == HitOf(p.id)(lines[0]) + Hits(lines[1..], p.id);
    assert Demand(lines, p.id) == QuantityOf(p.id)(lines[0]) + Demand(lines[1..], p.id);
    assert Hits(lines, p.id) == 1 && Demand(lines, p.id) == 4;
    var db1 := CreateOrder(db, "o1", "c1", p.farmerId, lines, "pending", 4 * p.price).0;
    assert db1.products[0] == Adjust(p, -4);
  }

  function ByConsumer(consumerId: string): Order -> bool {
    (o: Order) => o.consumerId == consumerId
  }

  function ByFarmer(farmerId: string): Order -> bool {
    (o: Order) => o.farmerId == farmerId
  }

  /** `getOrdersByConsumer`: exactly the consumer's orders, in stored order. */
  function GetOrdersByConsumer(os: seq<Order>, consumerId: string): (r: seq<Order>)
    ensures forall o :: o in r <==> o in os && o.consumerId == consumerId
    ensures Seqs.IsSubsequence(r, os) && |r| == Seqs.Count(os, ByConsumer(consumerId))
  {
    Seqs.Filter(os, ByConsumer(consumerId))
  }

  /** `getOrdersByFarmer`: exactly the farmer's orders, in stored order. */
  function GetOrdersByFarmer(os: seq<Order>, farmerId: string): (r: seq<Order>)
    ensures forall o :: o in r <==> o in os && o.farmerId == farmerId
    ensures Seqs.IsSubsequence(r, os) && |r| == Seqs.Count(os, ByFarmer(farmerId))
  {
    Seqs.Filter(os, ByFarmer(farmerId))
  }

  // ----------------------------------------------------------------- reviews

  function AboutProduct(productId: string): Review -> bool {
    (r: Review) => r.productId == Some(productId)
  }

  /** `getProductReviews`: exactly the reviews that name the product, in stored order. */
  function GetProductReviews(rs: seq<Review>, productId: string): (r: seq<Review>)
    ensures forall v :: v in r <==> v in rs && v.productId == Some(productId)
    ensures Seqs.IsSubsequence(r, rs) && |r| == Seqs.Count(rs, AboutProduct(productId))
  {
    Seqs.Filter(rs, AboutProduct(productId))
  }

  /** `createReview`: the review is appended under the given fresh id. */
  function CreateReview(db: Store, id: string, review: Review): (r: (Store, Review))
    ensures r.1 == review.(id := id)
    ensures r.0.reviews == db.reviews + [r.1]
    ensures r.0.users == db.users && r.0.products == db.products && r.0.orders == db.orders
  {
    var v := review.(id := id);
    (db.(reviews := db.reviews + [v]), v)
  }

  // ------------------------------------------------------- cross-operation laws

  /** A new product shows up last among its farmer's products, and nowhere else. */
  lemma CreateProductListedLast(db: Store, id: string, product: Product, farmerId: string)
    ensures var after := CreateProduct(db, id, product).0.products;
            GetFarmerProducts(after, farmerId) ==
              GetFarmerProducts(db.products, farmerId) + (if product.farmerId == farmerId then [product.(id := id)] else [])
  {
    var p := product.(id := id);
    assert CreateProduct(db, id, product).0.products == db.products + [p];
    Seqs.FilterAppend(db.products, [p], FromFarmer(farmerId));
    assert [p][1..] == [];
    assert Seqs.Filter([p], FromFarmer(farmerId)) == if product.farmerId == farmerId then [p] else [];
  }

  /** A new review shows up last among its product's reviews, and nowhere else. */
  lemma CreateReviewListedLast(db: Store, id: string, review: Review, productId: string)
    ensures var after := CreateReview(db, id, review).0.reviews;
            GetProductReviews(after, productId) ==
              GetProductReviews(db.reviews, productId) + (if review.productId == Some(productId) then [review.(id := id)] else [])
  {
    var v := review.(id := id);
    assert CreateReview(db, id, review).0.reviews == db.reviews + [v];
    Seqs.FilterAppend(db.reviews, [v], AboutProduct(productId));
    assert [v][1..] == [];
    assert Seqs.Filter([v], AboutProduct(productId)) == if review.productId == Some(productId) then [v] else [];
  }

  /**
   * Moving the stock of a product by `c` and then by `-c` (a missing id
   * changes nothing either time) restores every quantity, and restores the whole list when every product's
   * `available` flag already agreed with its quantity.
   */
  lemma QuantityChangeUndone(ps: seq<Product>, productId: string, c: int)
    ensures var once := UpdateProductQuantity(ps, productId, c).0;
            var twice := UpdateProductQuantity(once, productId, -c).0;
            (forall i :: 0 <= i < |ps| ==> twice[i].quantity == ps[i].quantity)
            && ((forall i :: 0 <= i < |ps| ==> ps[i].available == (ps[i].quantity > 0)) ==> twice == ps)
  {
    var once := UpdateProductQuantity(ps, productId, c).0;
    var twice := UpdateProductQuantity(once, productId, -c).0;
    forall i | 0 <= i < |ps|
      ensures twice[i].quantity == ps[i].quantity
      ensures ps[i].available == (ps[i].quantity > 0) ==> twice[i] == ps[i]
    {
      UndoneAt(ps, productId, c, i);
    }
  }

  /** Entry i after a change by c and then by -c: the product moved there and back, or untouched. */
  lemma UndoneAt(ps: seq<Product>, productId: string, c: int, i: int)
    requires 0 <= i < |ps|
    ensures var twice := UpdateProductQuantity(UpdateProductQuantity(ps, productId, c).0, productId, -c).0;
            && twice[i].quantity == ps[i].quantity
            && (ps[i].available == (ps[i].quantity > 0) ==> twice[i] == ps[i])
  {
    var once := UpdateProductQuantity(ps, productId, c).0;
    var twice := UpdateProductQuantity(once, productId, -c).0;
    assert forall j :: 0 <= j < |ps| ==> once[j].id == ps[j].id;
    assert FirstOfId(once, i) == FirstOfId(ps, i);
    AdjustUndone(ps[i], c);
  }

  /** Moving a stock by c and back restores the quantity, and the product when its flag was consistent. */
  lemma AdjustUndone(p: Product, c: int)
    ensures Adjust(Adjust(p, c), -c).quantity == p.quantity
    ensures p.available == (p.quantity > 0) ==> Adjust(Adjust(p, c), -c) == p
  {
  }

  /** Deleting is idempotent: a second delete removes nothing and reports `false`. */
  lemma DeleteTwice(ps: seq<Product>, productId: string)
    ensures var once := DeleteProduct(ps, productId).0;
            DeleteProduct(once, productId) == (once, false)
  {
    var once := DeleteProduct(ps, productId).0;
    assert forall p :: p in once ==> OtherThan(productId)(p);
    Seqs.FilterKeepsAll(once, OtherThan(productId));
  }
}

=== FILE: login.dfy ===
/**
 * The login form (src/pages/Login.tsx): create a local user with the typed
 * name and chosen role, then go back to a stored return address or to the
 * role's home page, with a gate that keeps non-consumers out of checkout.
 */
module Login {
  import opened Options
  import LocalDb
  import opened Browser
  import CartPage

  /** The storage afterwards, where the page navigates (if anywhere), and the role the form shows. */
  datatype Outcome = Outcome(storage: Storage, navigate: Option<string>, formRole: string)

  /** A stored `returnUrl` counts only when it is a non-empty string. */
  predicate Truthy(returnUrl: Option<string>) {
    returnUrl.Some? && returnUrl.value != []
  }

  /**
   * `handleSubmit`: the new user (with id `newId`, drawn at random by db.ts)
   * is stored; a truthy return address is consumed and followed, except that
   * a non-consumer coming back to `/cart` is signed out again and stays on
   * the form with the role reset to consumer; without one, the role decides.
   */
  function Submit(s: Storage, name: string, role: string, newId: string): (o: Outcome)
    ensures o.storage.db == LocalDb.CreateUser(s.db, newId, name, role).0
    ensures o.storage.cart == s.cart
    ensures Truthy(s.returnUrl) ==> o.storage.returnUrl == None
    ensures !Truthy(s.returnUrl) ==> o.storage.returnUrl == s.returnUrl && o.navigate == Some(HomeFor(role))
    ensures s.returnUrl == Some("/cart") && role != "consumer" ==>
      o.storage.user == Blank && o.navigate == None && o.formRole == "consumer"
    ensures Truthy(s.returnUrl) && !(s.returnUrl == Some("/cart") && role != "consumer") ==> o.navigate == s.returnUrl
    ensures o.navigate.Some? ==> o.storage.user == Holds(LocalDb.User(newId, name, role)) && o.formRole == role
  {
    var (db, user) := LocalDb.CreateUser(s.db, newId, name, role);
    var signedIn := s.(user := Holds(user), db := db);
    if Truthy(s.returnUrl) then
      var url := s.returnUrl.value;
      if url == "/cart" && role != "consumer" then
        Outcome(signedIn.(user := Blank, returnUrl := None), None, "consumer")
      else
        Outcome(signedIn.(returnUrl := None), Some(url), role)
    else
      Outcome(signedIn, Some(HomeFor(role)), role)
  }

  /**
   * The detour through login from checkout: a visitor who is turned away
   * from the cart and logs in as a consumer lands back on `/cart` able to
   * check out; logging in with any other role leaves nobody signed in.
   */
  lemma CheckoutDetour(s: Storage, idFor: nat -> string, name: string, role: string, newId: string)
    requires !CartPage.MayCheckOut(s)
    ensures var away := CartPage.PlaceOrder(s, idFor);
            var back := Submit(away.storage, name, role, newId);
            && away.navigate == Some("/login")
            && (role == "consumer" ==> back.navigate == Some("/cart") && CartPage.MayCheckOut(back.storage))
            && (role != "consumer" ==> back.navigate == None && !CartPage.MayCheckOut(back.storage))
            && back.storage.cart == s.cart
  {
  }
}

=== FILE: options.dfy ===
/** An optional value: the model's stand-in for JavaScript's `undefined`/`null`. */
module Options {

  datatype Option<+T> = None | Some(value: T) {

    /** The wrapped value, or `default` when there is none (JavaScript's `x ?? default`). */
    function GetOr(default: T): T {
      match this
      case Some(v) => v
      case None => default
    }
  }
}

=== FILE: product_detail.dfy ===
/**
 * The product page (src/pages/ProductDetail.tsx): the quantity stepper, the
 * add-to-cart button's enabled state, and the add-to-cart merge for a product
 * fetched from GET /api/products/:id.
 */
module ProductDetail {
  import opened Options
  import Text
  import CartLines

  /**
   * A product as the server's JSON carries it. `objectId` is its `_id`;
   * `id` is the `id` property the page reads, which that JSON does not
   * carry, so for a fetched product it is `None` (`undefined`).
   */
  datatype ApiProduct = ApiProduct(objectId: string, id: Option<string>, name: string, price: int, stock: int, available: bool)

  type DetailCart = seq<CartLines.Entry<ApiProduct>>

  function Min(a: int, b: int): int {
    if a <= b then a else b
  }

  function Max(a: int, b: int): int {
    if a >= b then a else b
  }

  /** The `-` button: `Math.max(1, quantity - 1)`. */
  function Decrement(quantity: int): (r: int)
    ensures r >= 1
    ensures quantity > 1 ==> r == quantity - 1
    ensures quantity <= 1 ==> r == 1
  {
    Max(1, quantity - 1)
  }

  /** The `+` button: `Math.min(stock, quantity + 1)`. */
  function Increment(stock: int, quantity: int): (r: int)
    ensures r <= stock
    ensures quantity < stock ==> r == quantity + 1
    ensures quantity >= stock ==> r == stock
  {
    Min(stock, quantity + 1)
  }

  /**
   * The number input: `Math.min(stock, Math.max(1, parseInt(value) || 1))`;
   * `NaN` and 0 are falsy and read as 1.
   */
  function TypedQuantity(stock: int, value: string): (r: int)
    ensures stock >= 1 ==> 1 <= r <= stock
    ensures var n := Text.ParseIntNoRadix(value);
            n.Some? && 1 <= n.value <= stock ==> r == n.value
    ensures var n := Text.ParseIntNoRadix(value);
            n.Some? && n.value >= 1 && n.value >= stock ==> r == stock
    ensures var n := Text.ParseIntNoRadix(value);
            stock >= 1 && (n.None? || n.value <= 1) ==> r == 1
  {
    var parsed := Text.ParseIntNoRadix(value);
    var wanted := if parsed.None? || parsed.value == 0 then 1 else parsed.value;
    Min(stock, Max(1, wanted))
  }

  /** What the user does to the quantity control. */
  datatype Step = Minus | Plus | Typed(value: string)

  function Next(stock: int, quantity: int, step: Step): int {
    match step
    case Minus => Decrement(quantity)
    case Plus => Increment(stock, quantity)
    case Typed(value) => TypedQuantity(stock, value)
  }

  /** The quantity after a series of steps. */
  function Run(stock: int, quantity: int, steps: seq<Step>): int
    decreases |steps|
  {
    if steps == [] then quantity else Run(stock, Next(stock, quantity, steps[0]), steps[1..])
  }

  /** With at least one unit in stock, no series of steps leaves the range 1 to `stock`. */
  lemma {:induction false} RunStaysInRange(stock: int, quantity: int, steps: seq<Step>)
    requires 1 <= quantity <= stock
    ensures 1 <= Run(stock, quantity, steps) <= stock
    decreases |steps|
  {
    if steps != [] {
      RunStaysInRange(stock, Next(stock, quantity, steps[0]), steps[1..]);
    }
  }

  /** Typing a quantity the stock allows sets exactly that quantity. */
  lemma TypedRoundTrip(stock: int, n: nat)
    requires 1 <= n <= stock
    ensures TypedQuantity(stock, Text.DecimalString(n)) == n
  {
    Text.ParseIntNoRadixDecimal(n);
  }

  /** Typing more than the stock holds selects the whole stock; typing a negative number selects one unit. */
  lemma TypedClamps(stock: int, n: nat)
    requires stock >= 1
    ensures n >= stock ==> TypedQuantity(stock, Text.DecimalString(n)) == stock
    ensures n > 0 ==> TypedQuantity(stock, "-" + Text.DecimalString(n)) == 1
  {
    Text.ParseIntNoRadixDecimal(n);
    Text.ParseIntNoRadixNegative(n);
  }

  /** Typing something that is not a number, or zero, selects one unit (if the stock has one). */
  lemma TypedFallsBackToOne(stock: int, value: string)
    requires stock >= 1
    requires Text.ParseIntNoRadix(value) == None || Text.ParseIntNoRadix(value) == Some(0)
    ensures TypedQuantity(stock, value) == 1
  {
  }

  /** `disabled={!product.available || product.stock === 0}`. */
  predicate AddDisabled(p: ApiProduct) {
    !p.available || p.stock == 0
  }

  /**
   * Whenever the button can be pressed for a product with a positive stock,
   * the quantity it adds lies between 1 and the stock, whatever the user did
   * since the page opened with a quantity of 1.
   */
  lemma EnabledAddWithinStock(p: ApiProduct, steps: seq<Step>)
    requires !AddDisabled(p) && p.stock >= 0
    ensures p.available && 1 <= Run(p.stock, 1, steps) <= p.stock
  {
    RunStaysInRange(p.stock, 1, steps);
  }

  function ObjectIdOf(p: ApiProduct): string {
    p.objectId
  }

  function IdOf(p: ApiProduct): Option<string> {
    p.id
  }

  /**
   * `handleAddToCart` merging on the product's identity (`_id`): nothing
   * happens before the product has loaded; afterwards the cart gains
   * `quantity` units, under one entry per product.
   */
  function AddToCart(cart: DetailCart, product: Option<ApiProduct>, quantity: int): (r: DetailCart)
    ensures product.None? ==> r == cart
    ensures product.Some? && !CartLines.HasKey(cart, ObjectIdOf, product.value.objectId) ==>
      r == cart + [CartLines.Entry(product.value, quantity)]
    ensures product.Some? && CartLines.HasKey(cart, ObjectIdOf, product.value.objectId) ==>
      |r| == |cart| &&
      forall i :: 0 <= i < |cart| ==>
        r[i] == if CartLines.FirstWithKey(cart, ObjectIdOf, product.value.objectId, i)
                then cart[i].(quantity := cart[i].quantity + quantity) else cart[i]
    ensures product.Some? ==> CartLines.Units(r) == CartLines.Units(cart) + quantity
    ensures product.Some? ==> CartLines.HasKey(r, ObjectIdOf, product.value.objectId)
    ensures CartLines.DistinctKeys(cart, ObjectIdOf) ==> CartLines.DistinctKeys(r, ObjectIdOf)
  {
    match product
    case None => cart
    case Some(p) =>
      CartLines.MergeAddsUnits(cart, ObjectIdOf, p, quantity);
      CartLines.MergeKeepsKeysDistinct(cart, ObjectIdOf, p, quantity);
      CartLines.Merge(cart, ObjectIdOf, p, quantity)
  }

  /**
   * `handleAddToCart` as written: it matches cart entries on `item.id ===
   * product.id`, a property fetched products lack.
   */
  function AddToCartAsWritten(cart: DetailCart, product: Option<ApiProduct>, quantity: int): (r: DetailCart)
    ensures product.None? ==> r == cart
    ensures product.Some? ==> CartLines.Units(r) == CartLines.Units(cart) + quantity
  {
    match product
    case None => cart
    case Some(p) =>
      CartLines.MergeAddsUnits(cart, IdOf, p, quantity);
      CartLines.Merge(cart, IdOf, p, quantity)
  }

  /**
   * Two different fetched products added one after the other: as written
   * the second only raises the first one's quantity; merging on `_id` keeps
   * one entry each.
   */
  lemma AsWrittenMergesDifferentProducts(a: ApiProduct, b: ApiProduct)
    requires a.objectId != b.objectId && a.id == None && b.id == None
    ensures AddToCartAsWritten(AddToCartAsWritten([], Some(a), 1), Some(b), 1) == [CartLines.Entry(a, 2)]
    ensures AddToCart(AddToCart([], Some(a), 1), Some(b), 1) == [CartLines.Entry(a, 1), CartLines.Entry(b, 1)]
  {
    var once := AddToCartAsWritten([], Some(a), 1);
    assert once == [CartLines.Entry(a, 1)];
    assert CartLines.FirstWithKey(once, IdOf, b.id, 0);
    var fixed := AddToCart([], Some(a), 1);
    assert fixed == [CartLines.Entry(a, 1)];
    assert !CartLines.HasKey(fixed, ObjectIdOf, b.objectId);
  }
}

=== FILE: products_page.dfy ===
/**
 * The product list (src/pages/Products.tsx): the category and search
 * filters over the products of db.ts, and the one-unit add-to-cart.
 */
module ProductsPage {
  import Seqs
  import Text
  import LocalDb
  import CartLines
  import opened Browser

  /** The search matches the name or the description, ignoring ASCII case. */
  predicate MatchesQuery(p: LocalDb.Product, query: string) {
    Text.Includes(Text.ToLower(p.name), Text.ToLower(query))
    || Text.Includes(Text.ToLower(p.description), Text.ToLower(query))
  }

  function InCategory(category: string): LocalDb.Product -> bool {
    (p: LocalDb.Product) => p.category == category
  }

  function Matching(query: string): LocalDb.Product -> bool {
    (p: LocalDb.Product) => MatchesQuery(p, query)
  }

  /** Whether a product is listed: `all` admits every category, and an empty search admits every product. */
  predicate Shown(p: LocalDb.Product, category: string, query: string) {
    (category == "all" || p.category == category) && (query == [] || MatchesQuery(p, query))
  }

  /**
   * The filter effect: the category filter unless `all` is selected, then
   * the search filter unless the search box is empty.
   */
  function FilterProducts(products: seq<LocalDb.Product>, category: string, query: string): (r: seq<LocalDb.Product>)
    ensures forall p :: p in r <==> p in products && Shown(p, category, query)
    ensures Seqs.IsSubsequence(r, products)
  {
    var byCategory := if category != "all" then Seqs.Filter(products, InCategory(category)) else products;
    Seqs.SubsequenceRefl(products);
    Seqs.SubsequenceTrans(Seqs.Filter(byCategory, Matching(query)), byCategory, products);
    if query != [] then Seqs.Filter(byCategory, Matching(query)) else byCategory
  }

  /** The two successive filters are one filter by `Shown`. */
  lemma FilterProductsIsOneFilter(products: seq<LocalDb.Product>, category: string, query: string)
    ensures FilterProducts(products, category, query) == Seqs.Filter(products, (p: LocalDb.Product) => Shown(p, category, query))
  {
    var shown := (p: LocalDb.Product) => Shown(p, category, query);
    if category != "all" && query != [] {
      Seqs.FilterCompose(products, InCategory(category), Matching(query), shown);
    } else if category != "all" {
      Seqs.FilterSame(products, InCategory(category), shown);
    } else if query != [] {
      Seqs.FilterSame(products, Matching(query), shown);
    } else {
      Seqs.FilterKeepsAll(products, shown);
    }
  }

  /** With `all` selected and an empty search, the whole list is shown in stored order. */
  lemma NoFilterShowsAll(products: seq<LocalDb.Product>)
    ensures FilterProducts(products, "all", []) == products
  {
  }

  /** Typing the search in lower case lists the same products. */
  lemma SearchIgnoresCase(products: seq<LocalDb.Product>, category: string, query: string)
    ensures FilterProducts(products, category, Text.ToLower(query)) == FilterProducts(products, category, query)
  {
    Text.ToLowerIdempotent(query);
    FilterProductsIsOneFilter(products, category, query);
    FilterProductsIsOneFilter(products, category, Text.ToLower(query));
    Seqs.FilterSame(products, (p: LocalDb.Product) => Shown(p, category, Text.ToLower(query)),
                              (p: LocalDb.Product) => Shown(p, category, query));
  }

  function IdOf(p: LocalDb.Product): string {
    p.id
  }

  /** `handleAddToCart`: one more unit of the product, merged on its `id`. */
  function AddToCart(cart: seq<CartItem>, product: LocalDb.Product): (r: seq<CartItem>)
    ensures CartLines.Units(r) == CartLines.Units(cart) + 1
    ensures CartLines.HasKey(r, IdOf, product.id)
    ensures CartLines.DistinctKeys(cart, IdOf) ==> CartLines.DistinctKeys(r, IdOf)
    ensures CartLines.HasKey(cart, IdOf, product.id) ==> |r| == |cart|
    ensures CartLines.HasKey(cart, IdOf, product.id) ==>
      forall i :: 0 <= i < |cart| ==>
        r[i] == if CartLines.FirstWithKey(cart, IdOf, product.id, i)
                then cart[i].(quantity := cart[i].quantity + 1) else cart[i]
    ensures !CartLines.HasKey(cart, IdOf, product.id) ==> r == cart + [CartLines.Entry(product, 1)]
  {
    CartLines.MergeAddsUnits(cart, IdOf, product, 1);
    CartLines.MergeKeepsKeysDistinct(cart, IdOf, product, 1);
    CartLines.Merge(cart, IdOf, product, 1)
  }
}

=== FILE: review_schema.dfy ===
/**
 * The review schema (src/models/Review.ts): the path constraints on
 * `userId`, `rating` and `comment`, and the pre-validate hook that demands
 * exactly one of `productId` and `farmId`.
 */
module ReviewSchema {
  import opened Options

  /** A review document; `None` is a path that is not set. */
  datatype ReviewDoc = ReviewDoc(
    productId: Option<string>,
    farmId: Option<string>,
    userId: Option<string>,
    rating: Option<int>,
    comment: Option<string>)

  /** The path validators that can fail. */
  datatype PathError = UserMissing | RatingMissing | RatingBelowMin | RatingAboveMax | CommentMissing

  const MinRating := 1
  const MaxRating := 5

  /** The errors of one rating value: `min: 1`, `max: 5`. */
  function RatingErrors(rating: int): set<PathError> {
    (if rating < MinRating then {RatingBelowMin} else {}) + (if rating > MaxRating then {RatingAboveMax} else {})
  }

  /** The errors of one comment value: a required String rejects the empty string. */
  function CommentErrors(comment: string): set<PathError> {
    if comment == [] then {CommentMissing} else {}
  }

  /** Every path validator run over a whole document. */
  function PathErrors(d: ReviewDoc): set<PathError> {
    (if d.userId.None? then {UserMissing} else {})
    + (match d.rating case None => {RatingMissing} case Some(v) => RatingErrors(v))
    + (match d.comment case None => {CommentMissing} case Some(c) => CommentErrors(c))
  }

  /** The hook's condition, negated: exactly one target is set. */
  predicate OneTarget(d: ReviewDoc) {
    d.productId.Some? != d.farmId.Some?
  }

  /**
   * A review as the schema means it: one target, an author, a rating from
   * 1 to 5 and a non-empty comment.
   */
  predicate Valid(d: ReviewDoc) {
    && OneTarget(d)
    && d.userId.Some?
    && d.rating.Some? && MinRating <= d.rating.value <= MaxRating
    && d.comment.Some? && d.comment.value != []
  }

  /** What `validate()` reports: the hook's error first, otherwise the path errors, if any. */
  datatype Verdict = Accepted | TargetRejected | PathsRejected(errors: set<PathError>)

  /**
   * `doc.validate()`: the pre-validate hook rejects a document with no
   * target or two targets before any path validator runs; otherwise the
   * path validators decide.
   */
  function Validate(d: ReviewDoc): (v: Verdict)
    ensures v == Accepted <==> Valid(d)
    ensures v == TargetRejected <==> !OneTarget(d)
    ensures v.PathsRejected? ==> v.errors != {}
  {
    if !OneTarget(d) then TargetRejected
    else
      var errors := PathErrors(d);
      if errors == {} then Accepted else PathsRejected(errors)
  }

  /** A review about nothing is rejected by the hook. */
  lemma NoTargetRejected(d: ReviewDoc)
    requires d.productId == None && d.farmId == None
    ensures Validate(d) == TargetRejected
  {
  }

  /** A review about a product and a farm at once is rejected by the hook. */
  lemma TwoTargetsRejected(d: ReviewDoc)
    requires d.productId.Some? && d.farmId.Some?
    ensures Validate(d) == TargetRejected
  {
  }

  /** A rating outside 1..5 is reported, whatever else is wrong. */
  lemma RatingOutOfRangeRejected(d: ReviewDoc)
    requires d.rating.Some? && (d.rating.value < MinRating || d.rating.value > MaxRating)
    ensures Validate(d) != Accepted
    ensures OneTarget(d) ==> (Validate(d).PathsRejected? &&
      (RatingBelowMin in Validate(d).errors || RatingAboveMax in Validate(d).errors))
  {
  }
}

=== FILE: routes.dfy ===
/**
 * The route logic of server/src/api/routes.ts beyond the shared CRUD rules:
 * the review listings with their average rating, the farm-scoped review
 * POST, the product POST field mapping, and PUT on a review.
 */
module Routes {
  import opened Options
  import Seqs
  import Text
  import Crud
  import opened ReviewSchema

  // ------------------------------------------------------------------ listings

  function RatingOf(d: ReviewDoc): int {
    d.rating.GetOr(0)
  }

  /** `reviews.reduce((acc, review) => acc + review.rating, 0)`. */
  function RatingSum(reviews: seq<ReviewDoc>): int {
    Seqs.Sum(reviews, RatingOf)
  }

  /** The JSON a review listing answers with. */
  datatype Listing = Listing(reviews: seq<ReviewDoc>, averageRating: real, totalReviews: nat)

  /**
   * The listing of a set of reviews: the average is the rating sum over the
   * count, except that an empty list reports 0 rather than 0/0.
   */
  function Summarize(reviews: seq<ReviewDoc>): (l: Listing)
    ensures l.reviews == reviews && l.totalReviews == |reviews|
    ensures |reviews| == 0 ==> l.averageRating == 0.0
    ensures |reviews| > 0 ==> l.averageRating * (|reviews| as real) == RatingSum(reviews) as real
  {
    var n := |reviews|;
    var average := if n > 0 then (RatingSum(reviews) as real) / (n as real) else 0.0;
    Listing(reviews, average, n)
  }

  function AboutFarm(farmId: string): ReviewDoc -> bool {
    (d: ReviewDoc) => d.farmId == Some(farmId)
  }

  function AboutProduct(productId: string): ReviewDoc -> bool {
    (d: ReviewDoc) => d.productId == Some(productId)
  }

  /**
   * GET /farms/:farmId/reviews over the stored reviews in the order the
   * query's sort returns them: that farm's reviews, their count and average.
   */
  function ListFarmReviews(stored: seq<ReviewDoc>, farmId: string): (l: Listing)
    ensures forall d :: d in l.reviews <==> d in stored && d.farmId == Some(farmId)
    ensures Seqs.IsSubsequence(l.reviews, stored)
    ensures |l.reviews| == Seqs.Count(stored, AboutFarm(farmId))
    ensures l == Summarize(l.reviews)
  {
    Summarize(Seqs.Filter(stored, AboutFarm(farmId)))
  }

  /** GET /products/:productId/reviews: the same computation over that product's reviews. */
  function ListProductReviews(stored: seq<ReviewDoc>, productId: string): (l: Listing)
    ensures forall d :: d in l.reviews <==> d in stored && d.productId == Some(productId)
    ensures Seqs.IsSubsequence(l.reviews, stored)
    ensures |l.reviews| == Seqs.Count(stored, AboutProduct(productId))
    ensures l == Summarize(l.reviews)
  {
    Summarize(Seqs.Filter(stored, AboutProduct(productId)))
  }

  /** When every listed review passed the schema, a non-empty listing averages between 1 and 5. */
  lemma AverageWithinScale(reviews: seq<ReviewDoc>)
    requires |reviews| > 0
    requires forall i :: 0 <= i < |reviews| ==> Valid(reviews[i])
    ensures MinRating as real <= Summarize(reviews).averageRating <= MaxRating as real
  {
    var k := |reviews|;
    Seqs.SumBounds(reviews, RatingOf, MinRating, MaxRating);
    var sum := RatingSum(reviews);
    assert k <= sum <= 5 * k;
    assert 1.0 * (k as real) <= sum as real <= 5.0 * (k as real);
    var avg := Summarize(reviews).averageRating;
    assert avg * (k as real) == sum as real;
    DivideBounds(avg, k as real, sum as real, 1.0, 5.0);
  }

  /** A quotient avg = s / n (n > 0) of an s between lo·n and hi·n lies between lo and hi. */
  lemma DivideBounds(avg: real, n: real, s: real, lo: real, hi: real)
    requires n > 0.0 && avg * n == s && lo * n <= s <= hi * n
    ensures lo <= avg <= hi
  {
    assert (avg - lo) * n == s - lo * n;
    assert (hi - avg) * n == hi * n - s;
  }

  // ------------------------------------------------------------------ review writes

  type Reviews = Crud.Collection<ReviewDoc>

  /** Every stored review satisfies the schema. */
  predicate AllValid(db: Reviews) {
    forall id :: id in db ==> Valid(db[id])
  }

  function IsValid(d: ReviewDoc): bool {
    Valid(d)
  }

  /** POST /reviews: the body is validated as a whole document. */
  function PostReview(db: Reviews, id: string, body: ReviewDoc): (r: (Reviews, Crud.Response<ReviewDoc>))
    requires id !in db
    ensures r.1.status == Crud.Created <==> Valid(body)
    ensures Valid(body) ==> r.0 == db[id := body] && r.1.body == Some(body)
    ensures !Valid(body) ==> r.0 == db && r.1.status == Crud.BadRequest
    ensures AllValid(db) ==> AllValid(r.0)
  {
    Crud.Create(db, id, body, IsValid)
  }

  /** POST /farms/:farmId/reviews: the body's fields, with the farm taken from the path. */
  function PostFarmReview(db: Reviews, id: string, body: ReviewDoc, farmId: string): (r: (Reviews, Crud.Response<ReviewDoc>))
    requires id !in db
    ensures r.1.status == Crud.Created <==> Valid(body.(farmId := Some(farmId)))
    ensures r.1.status == Crud.Created ==> r.0 == db[id := body.(farmId := Some(farmId))]
    ensures r.1.status == Crud.Created ==> r.0[id].farmId == Some(farmId) && r.0[id].productId == None
    ensures r.1.status != Crud.Created ==> r.0 == db
    ensures AllValid(db) ==> AllValid(r.0)
  {
    Crud.Create(db, id, body.(farmId := Some(farmId)), IsValid)
  }

  /** A farm review whose body also names a product is always refused. */
  lemma FarmReviewWithProductRefused(db: Reviews, id: string, body: ReviewDoc, farmId: string)
    requires id !in db && body.productId.Some?
    ensures PostFarmReview(db, id, body, farmId) == (db, Crud.Response(Crud.BadRequest, None))
  {
  }

  /** The paths a PUT body sets; `None` leaves a path as stored. */
  datatype ReviewPatch = ReviewPatch(
    productId: Option<string>,
    farmId: Option<string>,
    userId: Option<string>,
    rating: Option<int>,
    comment: Option<string>)

  function ApplyPatch(d: ReviewDoc, p: ReviewPatch): ReviewDoc {
    ReviewDoc(
      if p.productId.Some? then p.productId else d.productId,
      if p.farmId.Some? then p.farmId else d.farmId,
      if p.userId.Some? then p.userId else d.userId,
      if p.rating.Some? then p.rating else d.rating,
      if p.comment.Some? then p.comment else d.comment)
  }

  /** The update validators: the path validators of the paths the body sets, and no hook. */
  function PatchErrors(p: ReviewPatch): set<PathError> {
    (match p.rating case None => {} case Some(v) => RatingErrors(v))
    + (match p.comment case None => {} case Some(c) => CommentErrors(c))
  }

  function PatchOk(p: ReviewPatch): bool {
    PatchErrors(p) == {}
  }

  /**
   * PUT /reviews/:id as written: `runValidators` runs the update validators
   * only, so the pre-validate hook never sees the merged document.
   */
  function PutReviewAsWritten(db: Reviews, id: string, patch: ReviewPatch): (r: (Reviews, Crud.Response<ReviewDoc>))
    ensures r.0.Keys == db.Keys
    ensures r.1.status == Crud.Ok <==> PatchOk(patch) && id in db
    ensures r.1.status == Crud.Ok ==> r.0 == db[id := ApplyPatch(db[id], patch)]
    ensures r.1.status != Crud.Ok ==> r.0 == db
  {
    Crud.Update(db, id, patch, PatchOk, ApplyPatch)
  }

  /**
   * Setting `farmId` on a stored product review is answered 200 and stores
   * a review with two targets, one the schema's hook forbids.
   */
  lemma PutReviewAsWrittenAddsSecondTarget(db: Reviews, id: string, farmId: string)
    requires AllValid(db) && id in db && db[id].productId.Some?
    ensures var r := PutReviewAsWritten(db, id, ReviewPatch(None, Some(farmId), None, None, None));
            r.1.status == Crud.Ok && !Valid(r.0[id]) && !AllValid(r.0)
  {
    var r := PutReviewAsWritten(db, id, ReviewPatch(None, Some(farmId), None, None, None));
    assert r.0[id].productId.Some? && r.0[id].farmId.Some?;
  }

  /**
   * PUT /reviews/:id validating the merged document as a whole, as `save()`
   * would: an invalid body is 400, an absent id 404, a merge the schema
   * rejects 400, otherwise the merged review is stored.
   */
  function PutReview(db: Reviews, id: string, patch: ReviewPatch): (r: (Reviews, Crud.Response<ReviewDoc>))
    ensures r.0.Keys == db.Keys
    ensures r.1.status == Crud.NotFound <==> PatchOk(patch) && id !in db
    ensures r.1.status == Crud.Ok <==> PatchOk(patch) && id in db && Valid(ApplyPatch(db[id], patch))
    ensures r.1.status == Crud.Ok ==> r.0 == db[id := ApplyPatch(db[id], patch)]
    ensures r.1.status != Crud.Ok ==> r.0 == db
    ensures AllValid(db) ==> AllValid(r.0)
  {
    if PatchOk(patch) && id in db && !Valid(ApplyPatch(db[id], patch)) then (db, Crud.Response(Crud.BadRequest, None))
    else Crud.Update(db, id, patch, PatchOk, ApplyPatch)
  }

  /** The schema invariant survives every review write of the corrected routes, in any order. */
  datatype ReviewWrite = Post(id: string, body: ReviewDoc) | PostFarm(id: string, body: ReviewDoc, farmId: string)
                       | Put(id: string, patch: ReviewPatch) | Delete(id: string)

  function Perform(db: Reviews, w: ReviewWrite): Reviews {
    match w
    case Post(id, body) => if id in db then db else PostReview(db, id, body).0
    case PostFarm(id, body, farmId) => if id in db then db else PostFarmReview(db, id, body, farmId).0
    case Put(id, patch) => PutReview(db, id, patch).0
    case Delete(id) => Crud.Delete(db, id).0
  }

  function PerformAll(db: Reviews, ws: seq<ReviewWrite>): Reviews
    decreases |ws|
  {
    if ws == [] then db else PerformAll(Perform(db, ws[0]), ws[1..])
  }

  lemma {:induction false} WritesKeepReviewsValid(db: Reviews, ws: seq<ReviewWrite>)
    requires AllValid(db)
    ensures AllValid(PerformAll(db, ws))
    decreases |ws|
  {
    if ws != [] {
      WritesKeepReviewsValid(Perform(db, ws[0]), ws[1..]);
    }
  }

  // ------------------------------------------------------------------ products

  /** The POST /products body: text fields as sent; `price` and `stock` as the text the parsers see. */
  datatype ProductBody = ProductBody(
    name: Option<string>,
    description: Option<string>,
    price: string,
    category: Option<string>,
    image: Option<string>,
    stock: string,
    available: Option<bool>,
    farmId: Option<string>)

  /** A product document; `None` for a number is `NaN`. */
  datatype ProductDoc = ProductDoc(
    name: Option<string>,
    description: Option<string>,
    price: Option<real>,
    category: Option<string>,
    image: Option<string>,
    stock: Option<int>,
    available: bool,
    unit: string,
    farmId: Option<string>)

  /**
   * The field mapping of POST /products: prices through `parseFloat`
   * (a parameter), stock through `parseInt` with no radix (so a `0x` prefix
   * reads base 16), the unit fixed to `kg`, the
   * farm copied, and `available` defaulting to true when absent.
   */
  function MapProductBody(body: ProductBody, parseFloat: string -> Option<real>): (d: ProductDoc)
    ensures d.unit == "kg" && d.farmId == body.farmId
    ensures d.name == body.name && d.description == body.description && d.category == body.category && d.image == body.image
    ensures d.price == parseFloat(body.price)
    ensures d.stock == Text.ParseIntNoRadix(body.stock)
    ensures d.available <==> body.available != Some(false)
  {
    var stock := Text.ParseIntNoRadix(body.stock);
    ProductDoc(body.name, body.description, parseFloat(body.price), body.category, body.image,
               stock, body.available.GetOr(true), "kg", body.farmId)
  }

  predicate Present(s: Option<string>) {
    s.Some? && s.value != []
  }

  /** The schema paths a product document is validated on, in schema order. */
  datatype ProductPath = NamePath | DescriptionPath | PricePath | CategoryPath | FarmPath | StockPath | UnitPath

  /**
   * The paths whose validation fails: a required string that is missing or
   * empty, a missing farm, or a number that is missing or `NaN` (the cast
   * fails). `image`, `available` and `createdAt` never fail.
   */
  function FailingPaths(d: ProductDoc): seq<ProductPath> {
    (if Present(d.name) then [] else [NamePath])
    + (if Present(d.description) then [] else [DescriptionPath])
    + (if d.price.Some? then [] else [PricePath])
    + (if Present(d.category) then [] else [CategoryPath])
    + (if d.farmId.Some? then [] else [FarmPath])
    + (if d.stock.Some? then [] else [StockPath])
    + (if d.unit != [] then [] else [UnitPath])
  }

  /**
   * The product schema: name, description, category, farm and unit are
   * required; price and stock must be numbers (a `NaN` fails the cast).
   * A document saves exactly when no path fails.
   */
  function ProductValid(d: ProductDoc): (ok: bool)
    ensures ok <==> FailingPaths(d) == []
    ensures !ok && d.stock.None? ==> StockPath in FailingPaths(d)
  {
    Present(d.name) && Present(d.description) && Present(d.category) && d.farmId.Some?
    && d.price.Some? && d.stock.Some? && d.unit != []
  }

  /** The optional paths have no say in validation. */
  lemma OptionalPathsIgnored(d: ProductDoc, image: Option<string>, available: bool)
    ensures ProductValid(d.(image := image, available := available)) == ProductValid(d)
    ensures FailingPaths(d.(image := image, available := available)) == FailingPaths(d)
  {
  }

  /** POST /products: the mapped document is validated and stored under a fresh id. */
  function PostProduct(db: Crud.Collection<ProductDoc>, id: string, body: ProductBody, parseFloat: string -> Option<real>): (r: (Crud.Collection<ProductDoc>, Crud.Response<ProductDoc>))
    requires id !in db
    ensures r.1.status == Crud.Created ==> id in r.0 && r.0[id].unit == "kg" && r.0[id].farmId == body.farmId
    ensures r.1.status == Crud.Created ==> r.0[id].stock == Text.ParseIntNoRadix(body.stock)
    ensures r.1.status == Crud.Created <==> ProductValid(MapProductBody(body, parseFloat))
    ensures r.1.status == Crud.Created ==>
      r.0 == db[id := MapProductBody(body, parseFloat)] && r.1.body == Some(MapProductBody(body, parseFloat))
    ensures r.1.status != Crud.Created ==> r.0 == db && r.1.status == Crud.BadRequest
  {
    Crud.Create(db, id, MapProductBody(body, parseFloat), ProductValid)
  }

  /** A stock field with no leading digits is `NaN` after `parseInt`, and the product is refused. */
  lemma ProductWithoutStockRefused(db: Crud.Collection<ProductDoc>, id: string, body: ProductBody, parseFloat: string -> Option<real>)
    requires id !in db && body.stock == []
    ensures PostProduct(db, id, body, parseFloat).1.status == Crud.BadRequest
    ensures PostProduct(db, id, body, parseFloat).0 == db
  {
  }

  /** A stock typed as digits is stored as that number. */
  lemma ProductStockReadBack(db: Crud.Collection<ProductDoc>, id: string, body: ProductBody, parseFloat: string -> Option<real>, n: nat)
    requires id !in db && body.stock == Text.DecimalString(n)
    ensures PostProduct(db, id, body, parseFloat).1.status == Crud.Created ==> PostProduct(db, id, body, parseFloat).0[id].stock == Some(n)
  {
    Text.ParseIntNoRadixDecimal(n);
  }

  /** A stock sent as `0x` and base-16 digits is stored as the base-16 number. */
  lemma ProductHexStockReadBack(db: Crud.Collection<ProductDoc>, id: string, body: ProductBody, parseFloat: string -> Option<real>, n: nat)
    requires id !in db && body.stock == "0x" + Text.Numeral(n, 16)
    ensures PostProduct(db, id, body, parseFloat).1.status == Crud.Created ==> PostProduct(db, id, body, parseFloat).0[id].stock == Some(n)
  {
    Text.ParseIntNoRadixHex(n);
  }

  /** A stock of `0x` with no base-16 digit after it is `NaN`, and the product is refused. */
  lemma ProductBareHexPrefixRefused(db: Crud.Collection<ProductDoc>, id: string, body: ProductBody, parseFloat: string -> Option<real>, rest: string)
    requires id !in db && body.stock == "0x" + rest
    requires rest == [] || !Text.IsDigitIn(rest[0], 16)
    ensures PostProduct(db, id, body, parseFloat).1.status == Crud.BadRequest
    ensures PostProduct(db, id, body, parseFloat).0 == db
  {
    Text.ParseIntNoRadixBarePrefix(rest);
  }
}

=== FILE: seqs.dfy ===
/**
 * Sequence combinators shared by the model: `Array.prototype.filter`,
 * `findIndex`, a numeric `reduce`, and the subsequence relation used to
 * state that a filter keeps the stored order.
 */
module Seqs {
  import opened Options

  /** How many elements of `xs` satisfy `keep`. */
  function Count<T>(xs: seq<T>, keep: T -> bool): nat
    decreases |xs|
  {
    if xs == [] then 0
    else (if keep(xs[0]) then 1 else 0) + Count(xs[1..], keep)
  }

  /**
   * `a` can be obtained from `b` by deleting elements: each element of `b`
   * is either matched by the next element of `a` or skipped.
   */
  ghost predicate IsSubsequence<T>(a: seq<T>, b: seq<T>)
    decreases |b|
  {
    if b == [] then a == []
    else (a != [] && a[0] == b[0] && IsSubsequence(a[1..], b[1..])) || IsSubsequence(a, b[1..])
  }

  lemma {:induction false} SubsequenceRefl<T>(xs: seq<T>)
    ensures IsSubsequence(xs, xs)
    decreases |xs|
  {
    if xs != [] {
      SubsequenceRefl(xs[1..]);
    }
  }

  /** A subsequence of a subsequence is a subsequence. */
  lemma {:induction false} SubsequenceTrans<T>(a: seq<T>, b: seq<T>, c: seq<T>)
    requires IsSubsequence(a, b) && IsSubsequence(b, c)
    ensures IsSubsequence(a, c)
    decreases |c|
  {
    if c != [] {
      if b != [] && b[0] == c[0] && IsSubsequence(b[1..], c[1..]) {
        if a != [] && a[0] == b[0] && IsSubsequence(a[1..], b[1..]) {
          SubsequenceTrans(a[1..], b[1..], c[1..]);
        } else {
          SubsequenceTrans(a, b[1..], c[1..]);
        }
      } else {
        SubsequenceTrans(a, b, c[1..]);
      }
    }
  }

  /** The elements of `xs` that `keep` accepts, in their original order. */
  function Filter<T(!new)>(xs: seq<T>, keep: T -> bool): (r: seq<T>)
    ensures |r| == Count(xs, keep) <= |xs|
    ensures forall x :: x in r <==> x in xs && keep(x)
    ensures IsSubsequence(r, xs)
    decreases |xs|
  {
    if xs == [] then []
    else if keep(xs[0]) then [xs[0]] + Filter(xs[1..], keep)
    else Filter(xs[1..], keep)
  }

  /** The index of the first element `found` accepts (JavaScript's `findIndex`, with -1 as `None`). */
  function FirstIndex<T>(xs: seq<T>, found: T -> bool): (r: Option<nat>)
    ensures r.Some? ==> r.value < |xs| && found(xs[r.value])
    ensures r.Some? ==> forall j :: 0 <= j < r.value ==> !found(xs[j])
    ensures r.None? <==> forall j :: 0 <= j < |xs| ==> !found(xs[j])
    decreases |xs|
  {
    if xs == [] then None
    else if found(xs[0]) then Some(0)
    else match FirstIndex(xs[1..], found)
      case None => None
      case Some(i) => Some(i + 1)
  }

  /** `xs.reduce((acc, x) => acc + f(x), 0)` over integers. */
  function Sum<T>(xs: seq<T>, f: T -> int): int
    decreases |xs|
  {
    if xs == [] then 0 else f(xs[0]) + Sum(xs[1..], f)
  }

  /** `xs.map(f)`. */
  function Map<T, U>(xs: seq<T>, f: T -> U): (r: seq<U>)
    ensures |r| == |xs|
    ensures forall i :: 0 <= i < |xs| ==> r[i] == f(xs[i])
    decreases |xs|
  {
    if xs == [] then [] else [f(xs[0])] + Map(xs[1..], f)
  }

  lemma {:induction false} MapAppend<T, U>(a: seq<T>, b: seq<T>, f: T -> U)
    ensures Map(a + b, f) == Map(a, f) + Map(b, f)
  {
  }

  lemma {:induction false} FilterAppend<T(!new)>(a: seq<T>, b: seq<T>, keep: T -> bool)
    ensures Filter(a + b, keep) == Filter(a, keep) + Filter(b, keep)
    decreases |a|
  {
    if a == [] {
      assert a + b == b;
    } else {
      assert (a + b)[1..] == a[1..] + b;
      FilterAppend(a[1..], b, keep);
    }
  }

  /** Filtering twice is filtering once by the conjunction. */
  lemma {:induction false} FilterCompose<T(!new)>(xs: seq<T>, f: T -> bool, g: T -> bool, both: T -> bool)
    requires forall x :: both(x) == (f(x) && g(x))
    ensures Filter(Filter(xs, f), g) == Filter(xs, both)
    decreases |xs|
  {
    if xs != [] {
      FilterCompose(xs[1..], f, g, both);
    }
  }

  /** Filters by two tests that agree on every element give the same list. */
  lemma {:induction false} FilterSame<T(!new)>(xs: seq<T>, f: T -> bool, g: T -> bool)
    requires forall x :: f(x) == g(x)
    ensures Filter(xs, f) == Filter(xs, g)
    decreases |xs|
  {
    if xs != [] {
      FilterSame(xs[1..], f, g);
    }
  }

  /** A filter that rejects nothing returns its input unchanged. */
  lemma {:induction false} FilterKeepsAll<T(!new)>(xs: seq<T>, keep: T -> bool)
    requires forall x :: x in xs ==> keep(x)
    ensures Filter(xs, keep) == xs
    decreases |xs|
  {
    if xs != [] {
      assert xs[0] in xs;
      assert forall x :: x in xs[1..] ==> x in xs;
      FilterKeepsAll(xs[1..], keep);
    }
  }

  /** A filter shortens its input exactly when some element is rejected. */
  lemma {:induction false} FilterShrinks<T(!new)>(xs: seq<T>, keep: T -> bool)
    ensures |Filter(xs, keep)| < |xs| <==> exists j :: 0 <= j < |xs| && !keep(xs[j])
    decreases |xs|
  {
    if xs != [] {
      FilterShrinks(xs[1..], keep);
      if !keep(xs[0]) {
        assert !keep(xs[0 as nat]);
      } else if exists j :: 0 <= j < |xs[1..]| && !keep(xs[1..][j]) {
        var j :| 0 <= j < |xs[1..]| && !keep(xs[1..][j]);
        assert !keep(xs[j + 1]);
      } else {
        forall j | 0 <= j < |xs|
          ensures keep(xs[j])
        {
          if j > 0 {
            assert xs[j] == xs[1..][j - 1];
          }
        }
      }
    }
  }

  lemma {:induction false} SumAppend<T>(a: seq<T>, b: seq<T>, f: T -> int)
    ensures Sum(a + b, f) == Sum(a, f) + Sum(b, f)
    decreases |a|
  {
    if a == [] {
      assert a + b == b;
    } else {
      assert (a + b)[1..] == a[1..] + b;
      SumAppend(a[1..], b, f);
    }
  }

  /** The sum over a list is the sum over what a filter keeps plus the sum over what it drops. */
  lemma {:induction false} SumSplit<T(!new)>(xs: seq<T>, f: T -> int, keep: T -> bool, drop: T -> bool)
    requires forall x :: drop(x) == !keep(x)
    ensures Sum(xs, f) == Sum(Filter(xs, keep), f) + Sum(Filter(xs, drop), f)
    decreases |xs|
  {
    if xs != [] {
      SumSplit(xs[1..], f, keep, drop);
      if keep(xs[0]) {
        assert Filter(xs, keep) == [xs[0]] + Filter(xs[1..], keep);
        assert Filter(xs, drop) == Filter(xs[1..], drop);
      } else {
        assert Filter(xs, drop) == [xs[0]] + Filter(xs[1..], drop);
        assert Filter(xs, keep) == Filter(xs[1..], keep);
      }
    }
  }

  /** Replacing one element changes the sum by the difference of the two values. */
  lemma {:induction false} SumUpdate<T>(xs: seq<T>, i: nat, v: T, f: T -> int)
    requires i < |xs|
    ensures Sum(xs[i := v], f) == Sum(xs, f) - f(xs[i]) + f(v)
    decreases |xs|
  {
    if i > 0 {
      assert xs[i := v][1..] == xs[1..][i - 1 := v];
      SumUpdate(xs[1..], i - 1, v, f);
    }
  }

  /** Taking out element `j` takes its term out of the sum. */
  lemma SumRemove<T>(b: seq<T>, j: int, f: T -> int)
    requires 0 <= j < |b|
    ensures Sum(b, f) == f(b[j]) + Sum(b[..j] + b[j + 1..], f)
  {
    assert b == b[..j] + b[j..];
    SumAppend(b[..j], b[j..], f);
    assert b[j..][1..] == b[j + 1..];
    SumAppend(b[..j], b[j + 1..], f);
  }

  /** Taking out element `j` takes one copy of it out of the multiset. */
  lemma MultisetRemove<T>(b: seq<T>, j: int)
    requires 0 <= j < |b|
    ensures multiset(b) == multiset(b[..j] + b[j + 1..]) + multiset{b[j]}
  {
    assert b == b[..j] + [b[j]] + b[j + 1..];
  }

  /** A sum does not depend on the order of its terms. */
  lemma {:induction false} SumPermutation<T>(a: seq<T>, b: seq<T>, f: T -> int)
    requires multiset(a) == multiset(b)
    ensures Sum(a, f) == Sum(b, f)
    decreases |a|
  {
    if a == [] {
      assert |b| == |multiset(b)| == 0;
    } else {
      var x := a[0];
      assert x in multiset(b);
      var j :| 0 <= j < |b| && b[j] == x;
      var rest := b[..j] + b[j + 1..];
      SumRemove(b, j, f);
      MultisetRemove(b, j);
      assert a == [x] + a[1..];
      assert multiset(a) == multiset(a[1..]) + multiset{x};
      assert multiset(a[1..]) == multiset(rest) by {
        forall y
          ensures multiset(a[1..])[y] == multiset(rest)[y]
        {
          assert multiset(a)[y] == multiset(b)[y];
        }
      }
      SumPermutation(a[1..], rest, f);
    }
  }

  /** A sum of terms that are each at least `lo` and at most `hi`. */
  lemma {:induction false} SumBounds<T>(xs: seq<T>, f: T -> int, lo: int, hi: int)
    requires forall i :: 0 <= i < |xs| ==> lo <= f(xs[i]) <= hi
    ensures lo * |xs| <= Sum(xs, f) <= hi * |xs|
    decreases |xs|
  {
    if xs != [] {
      var rest := xs[1..];
      assert forall i :: 0 <= i < |rest| ==> rest[i] == xs[i + 1];
      SumBounds(rest, f, lo, hi);
      var n := |rest|;
      assert |xs| == n + 1;
      assert lo * (n + 1) == lo * n + lo;
      assert hi * (n + 1) == hi * n + hi;
    }
  }
}

=== FILE: signup.dfy ===
/**
 * The sign-up form (src/pages/SignUp.tsx): require a role, refuse a username
 * some server user already has as `email`, create the user, and go to the
 * new user's home page.
 */
module SignUp {
  import opened Options
  import opened Browser

  /** A user as GET /api/users lists it; `email` may be missing. */
  datatype ServerUser = ServerUser(id: string, name: string, email: Option<string>, role: string)

  /** The requests the form sends, in order. */
  datatype Request = ListUsers | CreateUser(name: string, email: string, role: string)

  /** What a submission leaves: the requests sent, the error shown, the user stored, the page navigated to. */
  datatype Outcome = Outcome(requests: seq<Request>, error: Option<string>, stored: Option<ServerUser>, navigate: Option<string>)

  const NoRole := "Please select an account type"
  const Taken := "Username already taken. Please choose another one."
  const ListFailed := "Failed to fetch users"
  const CreateFailed := "Failed to create user"

  /** The user `users.find(u => u.email === username)` returns, if any. */
  predicate Claimed(users: seq<ServerUser>, username: string) {
    exists i :: 0 <= i < |users| && users[i].email == Some(username)
  }

  /** A failed fetch: a non-2xx answer raises the page's own message, a thrown error keeps its message. */
  function Failure<T>(reply: Reply<T>, message: string): string
    requires !reply.Ok?
  {
    if reply.NotOk? then message else reply.message
  }

  /**
   * `handleSubmit`, with the two fetches' outcomes as inputs: `list` for
   * GET /api/users, `create` for the POST that follows it.
   */
  function Submit(username: string, displayName: string, role: string,
                  list: Reply<seq<ServerUser>>, create: Reply<ServerUser>): (o: Outcome)
    ensures role == [] ==> o == Outcome([], Some(NoRole), None, None)
    ensures role != [] ==> |o.requests| >= 1 && o.requests[0] == ListUsers
    ensures role != [] && list.Ok? && Claimed(list.value, username) ==> o == Outcome([ListUsers], Some(Taken), None, None)
    ensures CreateUser(displayName, username, role) in o.requests <==>
      role != [] && list.Ok? && !Claimed(list.value, username)
    ensures o.error.None? <==> o.navigate.Some?
    ensures o.stored.Some? <==> o.navigate.Some?
    ensures o.navigate.Some? ==> create.Ok? && o.stored == Some(create.value) && o.navigate == Some(HomeFor(create.value.role))
  {
    if role == [] then Outcome([], Some(NoRole), None, None)
    else if !list.Ok? then Outcome([ListUsers], Some(Failure(list, ListFailed)), None, None)
    else if Claimed(list.value, username) then Outcome([ListUsers], Some(Taken), None, None)
    else
      var sent := [ListUsers, CreateUser(displayName, username, role)];
      match create
      case Ok(user) => Outcome(sent, None, Some(user), Some(HomeFor(user.role)))
      case _ => Outcome(sent, Some(Failure(create, CreateFailed)), None, None)
  }

  /** A successful sign-up is followed by the same redirect a login with the new user's role makes. */
  lemma SignUpLandsOnHome(username: string, displayName: string, role: string, users: seq<ServerUser>, user: ServerUser)
    requires role != [] && !Claimed(users, username)
    ensures Submit(username, displayName, role, Ok(users), Ok(user)).navigate == Some(HomeFor(user.role))
    ensures Submit(username, displayName, role, Ok(users), Ok(user)).stored == Some(user)
  {
  }
}

=== FILE: text.dfy ===
/**
 * The string operations the pages and the server rely on: `toLowerCase`,
 * `includes`, and `parseInt` with radix 10 or with no radix, written out
 * over `seq<char>`.
 */
module Text {
  import opened Options

  /** Lower-cases one ASCII capital; every other character is left alone. */
  function LowerChar(c: char): char {
    if 'A' <= c <= 'Z' then (c as int + 32) as char else c
  }

  /** `s.toLowerCase()` restricted to ASCII letters. */
  function ToLower(s: string): (r: string)
    ensures |r| == |s|
    ensures forall i :: 0 <= i < |s| ==> r[i] == LowerChar(s[i])
  {
    seq(|s|, i requires 0 <= i < |s| => LowerChar(s[i]))
  }

  lemma ToLowerIdempotent(s: string)
    ensures ToLower(ToLower(s)) == ToLower(s)
  {
  }

  /** `t` sits in `s` starting at index `i`. */
  predicate OccursAt(s: string, t: string, i: int) {
    0 <= i && i + |t| <= |s| && s[i..i + |t|] == t
  }

  /** `s.includes(t)`: some window of `s` equals `t` (the empty string is in every string). */
  function Includes(s: string, t: string): (r: bool)
    ensures r <==> exists i :: OccursAt(s, t, i)
    decreases |s|
  {
    if |t| > |s| then false
    else if s[..|t|] == t then (assert OccursAt(s, t, 0); true)
    else
      var rest := Includes(s[1..], t);
      assert !OccursAt(s, t, 0);
      assert forall i :: OccursAt(s[1..], t, i) <==> OccursAt(s, t, i + 1) by {
        forall i ensures OccursAt(s[1..], t, i) <==> OccursAt(s, t, i + 1) {
          if 0 <= i && i + |t| <= |s[1..]| {
            assert s[1..][i..i + |t|] == s[i + 1..i + 1 + |t|];
          }
        }
      }
      assert (exists i :: OccursAt(s, t, i)) ==> exists i :: OccursAt(s[1..], t, i) by {
        if exists i :: OccursAt(s, t, i) {
          var i :| OccursAt(s, t, i);
          assert OccursAt(s[1..], t, i - 1);
        }
      }
      rest
  }

  /** `\s` for `parseInt`: ECMAScript's StrWhiteSpaceChar (the Zs category and the listed format characters) and line terminators. */
  predicate IsJsSpace(c: char) {
    var k := c as int;
    k == 0x09 || k == 0x0A || k == 0x0B || k == 0x0C || k == 0x0D || k == 0x20 || k == 0xA0
    || k == 0x1680 || 0x2000 <= k <= 0x200A || k == 0x2028 || k == 0x2029 || k == 0x202F
    || k == 0x205F || k == 0x3000 || k == 0xFEFF
  }

  /**
   * A character's value as a digit of the bases `parseInt` accepts (up to 36):
   * `0`-`9` are 0-9, and `a`-`z` or `A`-`Z` are 10-35.
   */
  function DigitOf(c: char): (v: Option<nat>)
    ensures v.Some? ==> v.value < 36
  {
    if '0' <= c <= '9' then Some(c as int - '0' as int)
    else if 'a' <= c <= 'z' then Some(c as int - 'a' as int + 10)
    else if 'A' <= c <= 'Z' then Some(c as int - 'A' as int + 10)
    else None
  }

  /** `c` is a digit of base `radix`. */
  predicate IsDigitIn(c: char, radix: nat) {
    DigitOf(c).Some? && DigitOf(c).value < radix
  }

  /** A decimal digit. */
  predicate IsDigit(c: char) {
    IsDigitIn(c, 10)
  }

  predicate AllDigitsIn(d: string, radix: nat) {
    forall i :: 0 <= i < |d| ==> IsDigitIn(d[i], radix)
  }

  /** The digit character for `v`, lower-case past 9. */
  function DigitChar(v: nat): (c: char)
    requires v < 36
    ensures DigitOf(c) == Some(v)
  {
    if v < 10 then ('0' as int + v) as char else ('a' as int + v - 10) as char
  }

  /** The string with its leading white space removed. */
  function TrimStart(s: string): (r: string)
    ensures |r| <= |s|
    ensures r == [] || !IsJsSpace(r[0])
    ensures forall i :: 0 <= i < |s| - |r| ==> IsJsSpace(s[i])
    decreases |s|
  {
    if s != [] && IsJsSpace(s[0]) then
      var r := TrimStart(s[1..]);
      assert forall i :: 0 < i < |s| - |r| ==> s[i] == s[1..][i - 1];
      r
    else s
  }

  /** What `TrimStart` leaves is the tail of its input. */
  lemma {:induction false} TrimStartSuffix(s: string)
    ensures TrimStart(s) == s[|s| - |TrimStart(s)|..]
    decreases |s|
  {
    if s != [] && IsJsSpace(s[0]) {
      TrimStartSuffix(s[1..]);
    }
  }

  /** The length of the longest prefix of base-`radix` digits. */
  function DigitRun(s: string, radix: nat): (n: nat)
    ensures n <= |s|
    ensures AllDigitsIn(s[..n], radix)
    ensures n == |s| || !IsDigitIn(s[n], radix)
    decreases |s|
  {
    if s != [] && IsDigitIn(s[0], radix) then
      var n := 1 + DigitRun(s[1..], radix);
      assert forall i :: 0 < i < n ==> s[..n][i] == s[1..][..n - 1][i - 1];
      n
    else 0
  }

  /** The number a string of base-`radix` digits denotes, most significant digit first. */
  function DigitsValue(d: string, radix: nat): nat
    requires AllDigitsIn(d, radix)
    decreases |d|
  {
    if d == [] then 0 else DigitsValue(d[..|d| - 1], radix) * radix + DigitOf(d[|d| - 1]).value
  }

  /** The longest run of leading base-`radix` digits read as a number; `None` when there is no digit. */
  function ReadDigits(u: string, radix: nat): (r: Option<nat>)
    ensures r.None? <==> u == [] || !IsDigitIn(u[0], radix)
  {
    var n := DigitRun(u, radix);
    if n == 0 then None else Some(DigitsValue(u[..n], radix))
  }

  /** The number read, negated when a minus sign preceded it. */
  function Signed(r: Option<nat>, negative: bool): Option<int> {
    match r
    case None => None
    case Some(v) => var k: int := v; Some(if negative then -k else k)
  }

  /** The optional sign `parseInt` reads after the white space: whether it was `-`, and the text after it. */
  function SplitSign(t: string): (r: (bool, string))
    ensures r.0 <==> |t| > 0 && t[0] == '-'
    ensures r.1 == if |t| > 0 && (t[0] == '-' || t[0] == '+') then t[1..] else t
  {
    if |t| > 0 && t[0] == '-' then (true, t[1..])
    else if |t| > 0 && t[0] == '+' then (false, t[1..])
    else (false, t)
  }

  /** The text after the sign starts with `0x` or `0X`. */
  predicate HexPrefixed(u: string) {
    |u| >= 2 && u[0] == '0' && (u[1] == 'x' || u[1] == 'X')
  }

  /**
   * `parseInt(s, 10)`: skip leading white space, read an optional sign, then
   * the longest run of decimal digits; `None` stands for `NaN` (no digit).
   * A negative zero is returned as 0: every caller maps it to its default anyway.
   */
  function ParseInt(s: string): (r: Option<int>)
    ensures var u := SplitSign(TrimStart(s)).1; r.None? <==> u == [] || !IsDigit(u[0])
    ensures r.Some? && r.value < 0 ==> SplitSign(TrimStart(s)).0
  {
    var sign := SplitSign(TrimStart(s));
    Signed(ReadDigits(sign.1, 10), sign.0)
  }

  /**
   * `parseInt(s)` with no radix: the same, except that a `0x` or `0X` after
   * the sign is dropped and the digits after it are read in base 16.
   */
  function ParseIntNoRadix(s: string): (r: Option<int>)
    ensures !HexPrefixed(SplitSign(TrimStart(s)).1) ==> r == ParseInt(s)
    ensures var u := SplitSign(TrimStart(s)).1;
            HexPrefixed(u) ==> (r.None? <==> |u| == 2 || !IsDigitIn(u[2], 16))
  {
    var sign := SplitSign(TrimStart(s));
    if HexPrefixed(sign.1) then Signed(ReadDigits(sign.1[2..], 16), sign.0)
    else Signed(ReadDigits(sign.1, 10), sign.0)
  }

  /** Dividing by the radix splits off the last digit and leaves a smaller number. */
  lemma DivideByRadix(n: nat, radix: nat)
    requires 2 <= radix && n >= radix
    ensures 0 < n / radix < n
    ensures 0 <= n % radix < radix
    ensures n == n / radix * radix + n % radix
  {
    var q, m := n / radix, n % radix;
    assert n == q * radix + m;
    assert q * radix >= q * 2 by {
      assert q * (radix - 2) >= 0;
    }
  }

  /** `n.toString(radix)`. */
  function Numeral(n: nat, radix: nat): (d: string)
    requires 2 <= radix <= 36
    ensures |d| > 0 && AllDigitsIn(d, radix)
    decreases n
  {
    if n < radix then [DigitChar(n)]
    else
      DivideByRadix(n, radix);
      Numeral(n / radix, radix) + [DigitChar(n % radix)]
  }

  /** `String(n)`. */
  function DecimalString(n: nat): (d: string)
    ensures |d| > 0 && AllDigitsIn(d, 10)
  {
    Numeral(n, 10)
  }

  lemma {:induction false} NumeralValue(n: nat, radix: nat)
    requires 2 <= radix <= 36
    ensures DigitsValue(Numeral(n, radix), radix) == n
  {
    if n >= radix {
      DivideByRadix(n, radix);
      var d := Numeral(n, radix);
      var q := n / radix;
      assert d[..|d| - 1] == Numeral(q, radix);
      NumeralValue(q, radix);
      assert DigitsValue(d, radix) == q * radix + n % radix;
    }
  }

  lemma {:induction false} DigitRunStopsAt(d: string, rest: string, radix: nat)
    requires AllDigitsIn(d, radix)
    requires rest == [] || !IsDigitIn(rest[0], radix)
    ensures DigitRun(d + rest, radix) == |d|
    decreases |d|
  {
    if d != [] {
      assert (d + rest)[1..] == d[1..] + rest;
      DigitRunStopsAt(d[1..], rest, radix);
    } else {
      assert d + rest == rest;
    }
  }

  /** Reading the digits of a numeral stops where the numeral ends and yields its number. */
  lemma ReadDigitsNumeral(n: nat, radix: nat, rest: string)
    requires 2 <= radix <= 36
    requires rest == [] || !IsDigitIn(rest[0], radix)
    ensures ReadDigits(Numeral(n, radix) + rest, radix) == Some(n)
  {
    var d := Numeral(n, radix);
    DigitRunStopsAt(d, rest, radix);
    assert (d + rest)[..|d|] == d;
    NumeralValue(n, radix);
  }

  /** `parseInt(s, 10)` reads back what `String` printed, ignoring any non-digit tail. */
  lemma ParseIntDecimal(n: nat, rest: string)
    requires rest == [] || !IsDigit(rest[0])
    ensures ParseInt(DecimalString(n) + rest) == Some(n)
  {
    var s := DecimalString(n) + rest;
    assert IsDigit(s[0]);
    assert TrimStart(s) == s;
    ReadDigitsNumeral(n, 10, rest);
  }

  /** A leading minus sign negates the value `parseInt` reads. */
  lemma ParseIntNegative(n: nat)
    ensures ParseInt("-" + DecimalString(n)) == Some(-(n as int))
  {
    var s := "-" + DecimalString(n);
    assert TrimStart(s) == s;
    assert s[1..] == DecimalString(n) + [];
    ReadDigitsNumeral(n, 10, []);
  }

  /** Without a radix, a printed decimal number still reads back as itself. */
  lemma ParseIntNoRadixDecimal(n: nat)
    ensures ParseIntNoRadix(DecimalString(n)) == Some(n)
  {
    var d := DecimalString(n);
    assert IsDigit(d[0]);
    assert TrimStart(d) == d;
    assert SplitSign(d).1 == d;
    assert !HexPrefixed(d) by {
      if |d| >= 2 {
        assert IsDigitIn(d[1], 10);
      }
    }
    assert d + [] == d;
    ParseIntDecimal(n, []);
  }

  /** Without a radix, a minus sign still negates a printed decimal number. */
  lemma ParseIntNoRadixNegative(n: nat)
    ensures ParseIntNoRadix("-" + DecimalString(n)) == Some(-(n as int))
  {
    var d := DecimalString(n);
    var s := "-" + d;
    assert TrimStart(s) == s;
    assert SplitSign(s).1 == d;
    assert IsDigit(d[0]);
    assert !HexPrefixed(d) by {
      if |d| >= 2 {
        assert IsDigitIn(d[1], 10);
      }
    }
    ParseIntNegative(n);
  }

  /** Without a radix, `0x` followed by a base-16 numeral reads as that numeral's number. */
  lemma ParseIntNoRadixHex(n: nat)
    ensures ParseIntNoRadix("0x" + Numeral(n, 16)) == Some(n)
  {
    var s := "0x" + Numeral(n, 16);
    assert TrimStart(s) == s;
    assert SplitSign(s).1 == s;
    assert s[2..] == Numeral(n, 16) + [];
    ReadDigitsNumeral(n, 16, []);
  }

  /** Without a radix, `0x` with no base-16 digit after it is `NaN`, though it starts with the digit 0. */
  lemma ParseIntNoRadixBarePrefix(rest: string)
    requires rest == [] || !IsDigitIn(rest[0], 16)
    ensures ParseIntNoRadix("0x" + rest) == None
    ensures ParseInt("0x" + rest) == Some(0)
  {
    var s := "0x" + rest;
    assert s[0] == '0' && s[1] == 'x';
    assert TrimStart(s) == s;
    assert SplitSign(s) == (false, s);
    assert HexPrefixed(s);
    assert s[2..] == rest;
    assert ReadDigits(rest, 16) == None;
    DigitRunStopsAt("0", s[1..], 10);
    assert "0" + s[1..] == s;
    assert s[..1] == "0";
    assert ReadDigits(s, 10) == Some(0);
  }

  /** Leading white space does not change what `parseInt` reads. */
  lemma ParseIntSkipsSpace(c: char, s: string)
    requires IsJsSpace(c)
    ensures ParseInt([c] + s) == ParseInt(s)
    ensures ParseIntNoRadix([c] + s) == ParseIntNoRadix(s)
  {
    assert ([c] + s)[1..] == s;
  }

  /** `parseInt` yields `NaN` when, after white space and sign, no digit follows. */
  lemma ParseIntNaN(s: string)
    requires s == [] || (!IsDigit(s[0]) && !IsJsSpace(s[0]) && s[0] != '-' && s[0] != '+')
    ensures ParseInt(s) == None
    ensures ParseIntNoRadix(s) == None
  {
  }
}
